=== FILE: README.md ===
# AI SaaS starter kit: chat core in Dafny

This project models the chat core of an AI SaaS starter kit (Next.js, Drizzle over Postgres,
Supabase auth) and proves properties of it:

- **LLM dispatch** (`Llm`): `generateChatCompletion` routes a closed set of five provider tags
  (`openai`, `google`, `claude`, `ollama`, `lmstudio`) to one adapter each and rejects any
  other tag. Each adapter shapes a provider-neutral message list into its backend's request,
  picks its default model, builds self-hosted URLs, and reads content and token count from the
  reply. The SDK and HTTP calls are oracle functions in the parameter `net`. The environment's
  fallback API keys are the parameter `env`.
- **The chat exchange** (`ChatRoute`): `POST /api/ai/chat` runs these steps in order. It
  validates the body and creates the user's settings row if there is none. It stores the user's
  turn, asks for a completion, and stores the assistant's turn. It then gives the session an
  automatic title while the title is still the placeholder "새 대화" ("new conversation"), or
  only bumps `updated_at`. Last, it records usage. `Exchange` is the exchange as a function of
  the database. `Post` performs the steps one by one on a `Db.Store` object and is proved to
  have exactly that effect.
- **Session and history queries** (`SessionsRoute`, `HistoryRoute`): listing and creating
  sessions, the "last 50 turns, oldest first" history window, and clearing one user's history.
  Each state-changing handler is a method on the store, proved against a specification function.
- **Declarative rules**: the table definitions with their defaults and integrity constraints
  (`Schema`), the input validators (`Validators`) and the middleware's redirect decision
  (`Middleware`).

`Db.Store` is the database held in memory. It has one `seq` field per table and one method per
SQL statement the handlers issue. Its invariant `Valid` covers the schema's constraints: unique
session and document ids, one settings row per user, and history rows that reference existing
sessions and documents. Every write keeps that invariant. Writes that would break a constraint
are refused, as Postgres refuses them.

The caller supplies the clock (`now`) and fresh ids. Ids and timestamps are natural numbers.
Whether the database answers at all is a boolean parameter of the handlers that can only fail
that way.

The exchange never checks that the session belongs to the caller: it selects and updates the
session by id alone (app/api/ai/chat/route.ts:34,
107-110). The model follows the code. `ChatRoute.Exchange` lets any caller add turns to any
existing session and touch its title.

Helper modules: `Wrappers` (Option, Result), `Http` (the response envelope and its status) and
`Ordering` (filter, sort largest-first, reverse, the n largest).

## Model

| member | source | states |
|---|---|---|
| Llm.ParseProvider | lib/llm.ts:23-35 | a tag is accepted only if it is the tag of the provider it names |
| Llm.TagRoundTrip | lib/llm.ts:23-35 | each provider's tag parses back to that provider; a tag is rejected exactly when no provider has it |
| Llm.ModelOr | lib/llm.ts:111 | `config.model || default`: the configured model when it is non-empty, the default otherwise |
| Llm.EndpointUrl | lib/llm.ts:131-133 | the base URL (or the default when it is absent or empty) followed by the path; the URL always ends with the path |
| Llm.FirstSystem | lib/llm.ts:107 | `find`: none exactly when no message is a system message; otherwise the content of the first one |
| Llm.NonSystem | lib/llm.ts:108 | `filter`: no system message is kept, every non-system message is kept, the list never grows, and a list without system messages is returned unchanged |
| Llm.NonSystemCounts | lib/llm.ts:108 | each non-system message is kept exactly as often as it occurs, and no system message at all |
| Llm.NonSystemConcat | lib/llm.ts:108 | `filter` keeps the order: the non-system messages of a concatenation are those of its first part followed by those of its second |
| Llm.OpenAIRequestFor | lib/llm.ts:43-52 | the messages pass through unchanged; model defaults to gpt-4-turbo-preview; the key is `config.apiKey || OPENAI_API_KEY`; max_tokens is 1000 |
| Llm.ReadOpenAI | lib/llm.ts:54-57 | a refused call is the SDK's error; no choices is the TypeError on `message`; a null content becomes ''; the tokens are `total_tokens`, or 0 when absent |
| Llm.GenerateOpenAI | lib/llm.ts:39-58 | the OpenAI backend's answer to `OpenAIRequestFor` of the caller's messages, read as `ReadOpenAI` reads it: a rejection is its error, no choices the TypeError, otherwise the first choice and `total_tokens || 0` |
| Llm.GeminiTurnOf | lib/llm.ts:74-77 | the text is kept; the role is `model` exactly for an assistant message |
| Llm.GeminiRequestFor | lib/llm.ts:64-87 | fails exactly when there is no non-system message (the TypeError on `content`); history is the non-system messages but the last, mapped in order; the prompt is system + "\n\n" + last, or last alone; model defaults to gemini-pro; the key falls back to GOOGLE_API_KEY, then '' |
| Llm.GeminiRequestLossless | lib/llm.ts:71-87 | the history mapped back, followed by the last non-system message, is exactly the non-system messages; the prompt ends with that last message's text |
| Llm.ReadGemini | lib/llm.ts:89-95 | the reply's text, and always 0 tokens |
| Llm.GenerateGoogle | lib/llm.ts:60-96 | with no non-system message the TypeError on `content` and nothing sent; otherwise the Gemini backend's text for `GeminiRequestFor`, or its rejection; never any tokens |
| Llm.ClaudeTurnOf | lib/llm.ts:114-117 | the content is kept; the role is assistant exactly for an assistant message, otherwise user |
| Llm.ClaudeRequestFor | lib/llm.ts:102-118 | `system` is present exactly when a system message exists, and is the first one's content; the turns are the non-system messages in order, each mapped; model defaults to claude-3-5-sonnet-20241022; the key falls back to CLAUDE_API_KEY; max_tokens is 1000 |
| Llm.ClaudeTurnsLossless | lib/llm.ts:108-117 | the turns mapped back are exactly the non-system messages, in order |
| Llm.ReadClaude | lib/llm.ts:120-124 | no content block is the TypeError on `type`; a text block gives its text and any other block ''; the tokens are input plus output tokens |
| Llm.GenerateClaude | lib/llm.ts:98-125 | the Claude backend's answer to `ClaudeRequestFor`: a rejection is its error, no block the TypeError on `type`, otherwise a completion with input plus output tokens |
| Llm.OllamaRequestFor | lib/llm.ts:131-141 | URL `(baseUrl or http://localhost:11434)/api/chat`; the messages pass through unchanged; model defaults to llama2; no streaming |
| Llm.ReadOllama | lib/llm.ts:143-151 | a rejected call fails with its message; a non-ok status fails with "Ollama API error: <statusText>"; a rejected `json()` fails with its message; a body without `message` is the TypeError reading 'content'; otherwise exactly `message.content` and `eval_count || 0` |
| Llm.GenerateOllama | lib/llm.ts:127-152 | the Ollama backend's answer to `OllamaRequestFor`: a rejection is its error, a non-ok status the Ollama API error, a well-formed ok reply exactly its message and `eval_count || 0` |
| Llm.LMStudioRequestFor | lib/llm.ts:158-169 | URL `(baseUrl or http://localhost:1234)/v1/chat/completions`; the messages pass through unchanged; model defaults to kimi-k2-thinking; max_tokens is 1000 |
| Llm.ReadLMStudio | lib/llm.ts:171-179 | a rejected call fails with its message; a non-ok status fails with "LM Studio API error: <statusText>"; a rejected `json()` fails with its message; an empty `choices` is the TypeError reading 'message'; otherwise exactly the first choice's content and `usage.total_tokens || 0` |
| Llm.GenerateLMStudio | lib/llm.ts:154-180 | the LM Studio backend's answer to `LMStudioRequestFor`: a rejection is its error, a non-ok status the LM Studio API error, a well-formed ok reply exactly its first choice and `total_tokens || 0` |
| Llm.GenerateChatCompletion | lib/llm.ts:19-37 | an unknown tag fails with "Unsupported provider: <tag>", and that error arises only for an unknown tag |
| Llm.DispatchesToAdapter | lib/llm.ts:23-33 | for each known tag, the completion is exactly that provider's adapter applied to the caller's messages: its request sent to its own backend and the reply read by it |
| Llm.RoutedToOwnBackend | lib/llm.ts:23-33 | for each of the five tags, the result depends only on that provider's backend: two networks that agree on it give the same result |
| Schema.NewChatSession | drizzle/schema.ts:77-83 | an omitted title is "새 대화"; created and updated at `now`; not deleted |
| Schema.NewUserSettings | drizzle/schema.ts:16-25 | defaults: provider openai, model gpt-4-turbo-preview, no API keys, Ollama and LM Studio URLs at their local defaults |
| Schema.NewApiUsage | drizzle/schema.ts:106-114 | omitted tokens_used and cost are 0 |
| Schema.NewDocument | drizzle/schema.ts:46-57 | an omitted status is `processing` |
| Schema.NewSubscription | drizzle/schema.ts:31-43 | omitted plan and status are `free` and `active`; cancel_at_period_end is false |
| Schema.SettingsOf | drizzle/schema.ts:18 | none exactly when the user has no settings row; otherwise a row of that user |
| Schema.SessionById | drizzle/schema.ts:78 | none exactly when no session has the id; otherwise a session with that id |
| Schema.SessionByIdUnique | drizzle/schema.ts:78 | with unique ids, the session found by an id is the one stored row with it |
| Schema.InsertTurn | drizzle/schema.ts:90-98 | succeeds exactly when the session id is given and exists and the document, if given, exists; a missing session id is the not-null error, an unknown session the session foreign-key error, an unknown document (with a known session) the document foreign-key error; success appends exactly one row; the constraints are kept |
| Schema.InsertSettings | drizzle/schema.ts:18 | refused with the unique-constraint error exactly when the user already has a row; otherwise appends it; the constraints are kept |
| Schema.InsertSession | drizzle/schema.ts:78 | refused with the primary-key error exactly when the id is taken; otherwise appends the row; the constraints are kept |
| Schema.InsertUsage | drizzle/schema.ts:106-114 | appends the row and changes nothing else |
| Schema.Touched | drizzle/schema.ts:80-82 | a row with another id is unchanged; the row with the id gets updated_at = now and the new title if one is given |
| Schema.UpdateSession | drizzle/schema.ts:77-83 | every session row is touched as above, nothing else changes, the constraints are kept |
| Schema.DeleteHistoryOf | drizzle/schema.ts:90-98 | no turn of the user remains; every other user's turn remains with its multiplicity; nothing else changes |
| Schema.DeleteSession | drizzle/schema.ts:92 | the session is gone and, by the cascade, so are its turns; other sessions and turns remain |
| Schema.DeleteSessionKeepsConsistent | drizzle/schema.ts:92 | deleting a session with its cascade keeps every constraint |
| Schema.DeleteDocument | drizzle/schema.ts:94 | the document is gone and the turns that referred to it now have no document; nothing else changes |
| Schema.DeleteDocumentKeepsConsistent | drizzle/schema.ts:94 | deleting a document with `set null` keeps every constraint |
| Validators.SignUpIssues | lib/validators.ts:4-8 | valid exactly when password has at least 8 and name at least 2 characters; each field fails exactly when its own rule fails |
| Validators.SignInIssues | lib/validators.ts:10-13 | valid exactly when the password is non-empty |
| Validators.CreateDocumentIssues | lib/validators.ts:16-20 | valid exactly when title and content are non-empty and file_type, if present, is pdf, markdown or txt |
| Validators.UpdateDocumentIssues | lib/validators.ts:22-25 | each field may be absent but must be non-empty when present; the empty update is valid |
| Validators.ParseChatMessage | lib/validators.ts:28-31 | accepted exactly when the message is present and non-empty, keeping message and document id; a rejection names the message field |
| Validators.ParseSearch | lib/validators.ts:34-37 | accepted exactly when the query is non-empty and the limit, if given, is a number (fractions included) in [1, 50]; the limit defaults to 10 |
| Middleware.Decide | middleware.ts:72-82 | redirect to /login exactly when there is no user and the path contains /dashboard; to /dashboard exactly when there is a user and the path contains /login; otherwise the response passes through |
| Middleware.LocalePrefixedPathsMatch | middleware.ts:73-80 | locale-prefixed dashboard and login paths are redirected like the bare ones |
| Db.Store.SelectSettings | app/api/ai/chat/route.ts:36-39 | the user's settings row as `Schema.SettingsOf` finds it, and none exactly when the user has no row; the store is not changed |
| Db.Store.InsertTurn | drizzle/schema.ts:90-98 | the store performs the insert exactly when `Schema.InsertTurn` succeeds, and otherwise reports its error and changes nothing |
| Db.Store.InsertSession | drizzle/schema.ts:78 | appends the row exactly when its id is free; otherwise reports an error and changes nothing |
| Db.Store.InsertSettings | drizzle/schema.ts:18 | appends the row exactly when the user has no row; otherwise reports an error and changes nothing |
| Db.Store.UpdateSession | drizzle/schema.ts:77-83 | the store's new state is `Schema.UpdateSession` of the old one |
| Db.Store.SelectSession | app/api/ai/chat/route.ts:107-110 | the session with the id as `Schema.SessionById` finds it, and none exactly when no session has that id; the store is not changed |
| Db.Store.InsertUsage | app/api/ai/chat/route.ts:132-138 | the usage row is appended and every other table of the store is unchanged; the constraints are kept |
| Db.Store.DeleteHistoryOf | drizzle/schema.ts:90-98 | the store's new state is `Schema.DeleteHistoryOf` of the old one |
| ChatRoute.FirstSettings | app/api/ai/chat/route.ts:41-52 | the lazily created row: provider lmstudio, model kimi-k2-thinking, both base URLs at their defaults, no API keys |
| ChatRoute.SettingsUsed | app/api/ai/chat/route.ts:36-52 | the user's row when one exists, the newly created row otherwise |
| ChatRoute.WithSettings | app/api/ai/chat/route.ts:41-52 | an existing row leaves the database unchanged; otherwise exactly the new row is appended |
| ChatRoute.ConfigFor | app/api/ai/chat/route.ts:75-92 | apiKey is the key column of openai/google/claude and absent otherwise; baseUrl is the URL column of ollama/lmstudio and absent otherwise; never both |
| ChatRoute.ExchangeRequests | app/api/ai/chat/route.ts:64-75 | for the two exchange messages, Claude gets the prompt as `system` and the message as its only user turn; Gemini gets empty history and prompt + "\n\n" + message; the others get both messages unchanged |
| ChatRoute.AutoTitle | app/api/ai/chat/route.ts:114-116 | the message itself when it has at most 50 characters; otherwise its first 50 characters and "...", 53 in all |
| ChatRoute.TitleUpdate | app/api/ai/chat/route.ts:107-130 | a new title only when the session exists and its title is still the placeholder |
| ChatRoute.Cost | app/api/ai/chat/route.ts:136 | the least whole number of cents with 500 tokens per cent that covers the tokens |
| ChatRoute.SuccessUsage | app/api/ai/chat/route.ts:132-138 | status success with the token count and its cost |
| ChatRoute.ErrorUsage | app/api/ai/chat/route.ts:159-164 | status error with the error message; tokens and cost 0 |
| ChatRoute.RunExchange | app/api/ai/chat/route.ts:30-147 | keeps the constraints; usage grows by one success row exactly on success and not at all on failure; documents are untouched; an invalid body changes nothing; the settings row exists once the body is valid; a failure keeps the sessions, and a failure other than the completion's keeps the history; a success appends the user turn then the assistant turn and updates the exchange's session |
| ChatRoute.Exchange | app/api/ai/chat/route.ts:10-181 | without a user, 401 and no change; with a user never 401; every failure is CHAT_ERROR with status 500; the constraints are kept; the documents are untouched; sessions, settings and history are those the exchange left, and success is exactly a completed exchange |
| ChatRoute.InvalidBodyWritesOnlyUsage | app/api/ai/chat/route.ts:148-179 | an invalid body changes nothing but the error usage row, and fails |
| ChatRoute.RefusedTurnWritesNoTurn | app/api/ai/chat/route.ts:55-61 | a user turn the store refuses (missing or unknown session, unknown document) ends the exchange before the completion: history and sessions unchanged, only the settings row and the optional error row added, and the store's error reported as CHAT_ERROR |
| ChatRoute.FailedCompletionKeepsUserTurn | app/api/ai/chat/route.ts:55-64 | when the completion fails, the history holds the new user turn and no assistant turn, sessions are untouched, the error row is recorded if the store accepts it, and the reply carries the error's message |
| ChatRoute.SuccessfulExchange | app/api/ai/chat/route.ts:55-104 | on success the history grows by exactly the user turn then the assistant turn with tokens_used = the completion's tokens; one success usage row; the reply carries content and tokens |
| ChatRoute.UpdatedRow | app/api/ai/chat/route.ts:107-130 | with unique ids, the updated row gets updated_at = now and an automatic title exactly when its title was the placeholder |
| ChatRoute.TitleRule | app/api/ai/chat/route.ts:107-130 | no exchange changes a title other than the placeholder; on success the session gets updated_at = now and the automatic title if it had the placeholder, and every other session is unchanged |
| ChatRoute.TitleSetOnce | app/api/ai/chat/route.ts:112-129 | once an exchange leaves a title other than the placeholder, the next exchange keeps it |
| ChatRoute.SettingsCreatedLazily | app/api/ai/chat/route.ts:36-52 | after a validated exchange the user has exactly one settings row: the old one unchanged, or the new default row |
| ChatRoute.Run | app/api/ai/chat/route.ts:30-147 | the steps on the store have exactly the effect and outcome of `RunExchange` |
| ChatRoute.Post | app/api/ai/chat/route.ts:10-181 | the handler on the store has exactly the effect and response of `Exchange` and keeps the store's invariant |
| SessionsRoute.ListingAsWritten | app/api/chat/sessions/route.ts:19-24 | the query as written: every live session of any user, most recently updated first |
| SessionsRoute.ListingAsWrittenShowsOthers | app/api/chat/sessions/route.ts:22-23 | another user's live session appears in the caller's listing as written |
| SessionsRoute.Listing | app/api/chat/sessions/route.ts:19-24 | exactly the caller's live sessions, each as often as stored, ordered by updated_at, non-increasing |
| SessionsRoute.ListingRestrictsAsWritten | app/api/chat/sessions/route.ts:22-23 | the intended listing is the as-written listing restricted to the caller |
| SessionsRoute.Get | app/api/chat/sessions/route.ts:8-43 | 401 exactly without a user; GET_SESSIONS_ERROR with status 500 exactly when the database fails; otherwise exactly `Listing` of the stored sessions: only the caller's live sessions, every one of them as often as stored, newest update first |
| SessionsRoute.TitleOf | app/api/chat/sessions/route.ts:58 | a non-empty title is kept; a missing or empty one becomes "새 대화" |
| SessionsRoute.Create | app/api/chat/sessions/route.ts:46-85 | 401 exactly without a user; success exactly when the body parses, the database answers and the id is free, and then exactly one live session of the caller with that title is appended and returned; every other outcome changes nothing and is CREATE_SESSION_ERROR with status 500 |
| SessionsRoute.ListingAfterInsert | app/api/chat/sessions/route.ts:19-24 | appending a live session of the caller adds exactly that session to the caller's listing and removes none |
| SessionsRoute.CreatedSessionIsListed | app/api/chat/sessions/route.ts:60-71 | the created session appears in the caller's next listing, together with the sessions listed before |
| SessionsRoute.Post | app/api/chat/sessions/route.ts:46-85 | the handler on the store has exactly the effect and response of `Create` |
| Ordering.SortDescending | app/api/chat/sessions/route.ts:24 | non-increasing by the key and a permutation of its input |
| Ordering.Latest | app/api/ai/chat/history/route.ts:22-27 | as many elements as the input has, up to n; taken from the input; non-decreasing; none left out is larger than one kept |
| HistoryRoute.Window | app/api/ai/chat/history/route.ts:18-27 | only the caller's turns, across all sessions; as many as the caller has up to 50; oldest first; no turn left out is newer than one shown |
| HistoryRoute.Get | app/api/ai/chat/history/route.ts:7-42 | 401 exactly without a user; HISTORY_ERROR with status 500 exactly when the database fails; otherwise exactly `Window` of the stored turns: the caller's 50 most recent turns (all of them when fewer), oldest first |
| HistoryRoute.Clear | app/api/ai/chat/history/route.ts:44-76 | 401 exactly without a user and DELETE_ERROR with status 500 exactly when the database fails, both without change; otherwise no turn of the caller remains, every other turn does, nothing else changes |
| HistoryRoute.ClearEmptiesOnlyCallersWindow | app/api/ai/chat/history/route.ts:55-57 | after clearing, the caller's window is empty and every other user's window is unchanged |
| HistoryRoute.Delete | app/api/ai/chat/history/route.ts:44-76 | the handler on the store has exactly the effect and response of `Clear` |

## Left out

- The SDK and HTTP calls (OpenAI, Anthropic, Google, `fetch`, JSON parsing) are oracle functions.
  The model covers what goes into them and how their replies are read, not their behaviour.
- `temperature: 0.7` is floating point and is not modelled.
- ChatRoute.Cost: computes ceil(tokens / 500) exactly. It idealises `Math.ceil(tokens * 0.002)`
  on doubles, which can differ by rounding.
- String lengths and `substring` count characters. JavaScript counts UTF-16 code units, so a
  title cut inside a surrogate pair is not modelled.
- Supabase auth, `ensureUserExists`, cookies, the next-intl middleware and the `matcher`
  pattern are left out. The user is an optional input. The `users` table and the foreign keys
  into it are not modelled.
- The error handler of the exchange asks the auth service for the user a second time. The model
  assumes it returns the same user.
- ChatRoute.ExchangeError: the message of a validation error is modelled as the issues'
  messages, one per line. Zod renders the issue list as JSON.
- The texts of Postgres errors and the order in which Postgres reports two violated foreign
  keys are approximated.
- Database failures other than constraint violations are a boolean parameter of the session
  and history handlers. In the exchange, only constraint violations make the settings, turn,
  session and usage writes fail; whether the error-log insert of the error handler succeeds is
  the boolean `errorLogAccepted`, and its refusal is swallowed.
- The exchange reads the clock once. Each step uses the same `now`, so the user turn and the
  assistant turn of one exchange carry the same `created_at`. `HistoryRoute.Window` orders ties
  arbitrarily, so the model may list a reply before its question; the two inserts of the
  running code take successive clock readings.
- Ids are natural numbers chosen by the caller, not random UUIDs. The uuid and email format
  checks of the validators are left out.
- `JSON.parse` of a non-object body in the exchange is not modelled. The body is a record with
  optional fields. In `POST /api/chat/sessions`, a non-string title is not modelled.
- Concurrency between requests, console logging and indexes are not modelled.
- The `LLM_MODELS` catalogue, `lib/openai.ts`, `lib/stripe.ts` and `types/index.ts` are not
  part of this model: they hold static data, SDK wrappers or type aliases only.
- Rename, undelete and soft-delete handlers and ownership checks on a session id do not exist
  in the modelled code. `deleted_at` is only read.
- The sessions GET and history GET sort by an explicit insertion sort. Postgres may break ties
  in any order; the contracts allow any order among equal keys.

## Findings

| source | as written | input that shows it | evidently intended | confidence | as-written member | corrected member |
|---|---|---|---|---|---|---|
| app/api/chat/sessions/route.ts:22-23 | the second `.where` replaces the first, so the listing filters on `deleted_at IS NULL` only | a live session of user 2 in the store; user 1 lists sessions and gets it | only the caller's live sessions (`user_id = caller AND deleted_at IS NULL`) | medium (not executed; relies on Drizzle replacing the condition on a repeated `.where`) | SessionsRoute.ListingAsWrittenShowsOthers | SessionsRoute.Listing |

=== FILE: chat_route.dfy ===
/**
 * One chat exchange (app/api/ai/chat/route.ts, `POST`). In order: authenticate; validate the
 * body; create the user's LLM settings if there are none; store the user's turn; ask the
 * configured provider for a completion; store the assistant's turn; give the session an
 * automatic title while it still has the placeholder title, or else just bump its `updated_at`;
 * record the usage. Any error on the way is answered with `CHAT_ERROR` after an attempt to
 * record an error usage row, and whatever was written before the error stays written.
 *
 * `Exchange` is the exchange as a function of the database; `Post` performs it step by step on
 * a `Db.Store` and is proved to have exactly that effect.
 */
module ChatRoute {
  import opened Wrappers
  import opened Schema
  import opened Http
  import Llm
  import Validators
  import Db

  const Endpoint: string := "/api/ai/chat"

  /** The fixed system prompt: "You are an AI assistant that analyses documents and answers questions." */
  const SystemPrompt: string := "당신은 문서 내용을 분석하고 질문에 답변하는 AI 어시스턴트입니다."

  /** Longest message taken verbatim as a session title. */
  const TitleLimit: nat := 50

  /** The JSON body of a chat request. */
  datatype ChatRequestBody = ChatRequestBody(message: Option<string>, documentId: Option<Id>, sessionId: Option<Id>)

  /** The `data` of a successful reply. */
  datatype ChatReply = ChatReply(message: string, tokensUsed: nat)

  /** Why an exchange failed. */
  datatype ExchangeError =
    | InvalidBody(issues: seq<Validators.Issue>)
    | StoreError(dbError: DbError)
    | CompletionError(llmError: Llm.LlmError)
  {
    /** The `message` of the raised error. */
    function Message(): string {
      match this
      case InvalidBody(issues) => IssuesText(issues)
      case StoreError(e) => e.Message()
      case CompletionError(e) => e.Message()
    }
  }

  /** The issues' messages, one per line. */
  function IssuesText(issues: seq<Validators.Issue>): string {
    if issues == [] then "" else issues[0].message + (if |issues| == 1 then "" else "\n" + IssuesText(issues[1..]))
  }

  // ---------------------------------------------------------------------------------------------
  // The pieces of an exchange

  /** The row a user's first exchange creates: LM Studio with its default model, other columns at their defaults. */
  function FirstSettings(userId: Id): (s: UserSettings)
    ensures s.userId == userId && s.provider == "lmstudio" && s.model == "kimi-k2-thinking"
    ensures s.lmstudioBaseUrl == Some("http://localhost:1234") && s.ollamaBaseUrl == Some("http://localhost:11434")
    ensures s.openaiApiKey.None? && s.googleApiKey.None? && s.claudeApiKey.None?
  {
    NewUserSettings(userId, Some("lmstudio"), Some("kimi-k2-thinking"))
  }

  /** The settings the exchange uses: the user's row, or the one it creates. */
  function SettingsUsed(db: Tables, userId: Id): (s: UserSettings)
    ensures s.userId == userId
    ensures userId in SettingsOwners(db.settings) ==> s in db.settings
    ensures userId !in SettingsOwners(db.settings) ==> s == FirstSettings(userId)
  {
    SettingsOf(db.settings, userId).GetOr(FirstSettings(userId))
  }

  /** The database once the user's settings exist. */
  function WithSettings(db: Tables, userId: Id): (r: Tables)
    ensures userId in SettingsOwners(db.settings) ==> r == db
    ensures userId !in SettingsOwners(db.settings) ==> r == db.(settings := db.settings + [FirstSettings(userId)])
    ensures Consistent(db) ==> Consistent(r)
  {
    if userId in SettingsOwners(db.settings) then db else db.(settings := db.settings + [FirstSettings(userId)])
  }

  /**
   * The completion configuration built from a settings row: the API-key column that matches a
   * hosted provider, the base-URL column that matches a self-hosted one, and never both.
   */
  function ConfigFor(s: UserSettings): (c: Llm.LlmConfig)
    ensures c.provider == s.provider && c.model == s.model
    ensures s.provider == "openai" ==> c.apiKey == s.openaiApiKey
    ensures s.provider == "google" ==> c.apiKey == s.googleApiKey
    ensures s.provider == "claude" ==> c.apiKey == s.claudeApiKey
    ensures s.provider !in {"openai", "google", "claude"} ==> c.apiKey.None?
    ensures s.provider == "ollama" ==> c.baseUrl == s.ollamaBaseUrl
    ensures s.provider == "lmstudio" ==> c.baseUrl == s.lmstudioBaseUrl
    ensures s.provider !in {"ollama", "lmstudio"} ==> c.baseUrl.None?
    ensures c.apiKey.None? || c.baseUrl.None?
  {
    var apiKey := if s.provider == "openai" then s.openaiApiKey
                  else if s.provider == "google" then s.googleApiKey
                  else if s.provider == "claude" then s.claudeApiKey
                  else None;
    var baseUrl := if s.provider == "ollama" then s.ollamaBaseUrl
                   else if s.provider == "lmstudio" then s.lmstudioBaseUrl
                   else None;
    Llm.LlmConfig(s.provider, s.model, apiKey, baseUrl)
  }

  /** What the completion is asked: the fixed system prompt, then the user's message; no earlier turn. */
  function PromptFor(message: string): seq<Llm.ChatMessage> {
    [Llm.ChatMessage(Llm.System, SystemPrompt), Llm.ChatMessage(Llm.User, message)]
  }

  /**
   * What each backend receives for an exchange: Claude gets the system prompt as its separate
   * field and the message as the only (user) turn; Gemini gets no history and the system prompt
   * in front of the message; OpenAI, Ollama and LM Studio get both messages as they are.
   */
  lemma {:induction false} ExchangeRequests(message: string, config: Llm.LlmConfig, env: Llm.Env)
    ensures var claude := Llm.ClaudeRequestFor(PromptFor(message), config, env);
            claude.system == Some(SystemPrompt) && claude.messages == [Llm.ClaudeTurn(Llm.ClaudeUser, message)]
    ensures var gemini := Llm.GeminiRequestFor(PromptFor(message), config, env);
            gemini.Ok? && gemini.value.history == [] && gemini.value.prompt == SystemPrompt + "\n\n" + message
    ensures Llm.OpenAIRequestFor(PromptFor(message), config, env).messages == PromptFor(message)
    ensures Llm.OllamaRequestFor(PromptFor(message), config).messages == PromptFor(message)
    ensures Llm.LMStudioRequestFor(PromptFor(message), config).messages == PromptFor(message)
  {
    var ms := PromptFor(message);
    assert ms[1..] == [ms[1]];
    assert Llm.NonSystem(ms) == [ms[1]];
    assert Llm.FirstSystem(ms) == Some(SystemPrompt);
  }

  /**
   * The automatic title: the message itself when it has at most 50 characters, otherwise its
   * first 50 characters followed by "...".
   */
  function AutoTitle(message: string): (t: string)
    ensures |message| <= 50 ==> t == message
    ensures |message| > 50 ==> |t| == 53 && t[..50] == message[..50] && t[50..] == "..."
    ensures |t| <= 53
  {
    if |message| > TitleLimit then message[..TitleLimit] + "..." else message
  }

  /** The new title for the session found by id: an automatic title while the placeholder is in place, otherwise none. */
  function TitleUpdate(session: Option<ChatSession>, message: string): (t: Option<string>)
    ensures session.Some? && session.value.title == DefaultSessionTitle ==> t == Some(AutoTitle(message))
    ensures session.None? || session.value.title != DefaultSessionTitle ==> t.None?
  {
    if session.Some? && session.value.title == DefaultSessionTitle then Some(AutoTitle(message)) else None
  }

  /** `Math.ceil(tokens * 0.002)` with exact arithmetic: the cost in cents, at 500 tokens per cent. */
  function Cost(tokens: nat): (c: nat)
    ensures 500 * c >= tokens
    ensures c > 0 ==> 500 * (c - 1) < tokens
  {
    (tokens + 499) / 500
  }

  /** The usage row of a successful exchange. */
  function SuccessUsage(userId: Id, tokens: nat, now: Time): (u: ApiUsage)
    ensures u.userId == userId && u.endpoint == "/api/ai/chat" && u.status == "success"
    ensures u.tokensUsed == tokens && u.cost == Cost(tokens) && u.errorMessage.None?
  {
    NewApiUsage(userId, Endpoint, Some(tokens), Some(Cost(tokens)), "success", None, now)
  }

  /** The usage row of a failed exchange: tokens and cost left to their defaults. */
  function ErrorUsage(userId: Id, e: ExchangeError, now: Time): (u: ApiUsage)
    ensures u.userId == userId && u.endpoint == "/api/ai/chat" && u.status == "error"
    ensures u.tokensUsed == 0 && u.cost == 0 && u.errorMessage == Some(e.Message())
  {
    NewApiUsage(userId, Endpoint, None, None, "error", Some(e.Message()), now)
  }

  function UserTurn(userId: Id, body: ChatRequestBody, input: Validators.ChatMessageInput): TurnValues {
    TurnValues(body.sessionId, userId, input.documentId, "user", input.message, None)
  }

  function AssistantTurn(userId: Id, body: ChatRequestBody, input: Validators.ChatMessageInput, c: Llm.Completion): TurnValues {
    TurnValues(body.sessionId, userId, input.documentId, "assistant", c.content, Some(c.tokens))
  }

  // ---------------------------------------------------------------------------------------------
  // The exchange as a function of the database

  /** How far an authenticated exchange got: the database it left, and the reply or the error. */
  datatype Attempt = Done(db: Tables, reply: ChatReply) | Failed(db: Tables, error: ExchangeError)

  /** The `try` block for an authenticated user `userId`. */
  function RunExchange(db: Tables, userId: Id, body: ChatRequestBody, env: Llm.Env, net: Llm.Network, now: Time): (a: Attempt)
    ensures Consistent(db) ==> Consistent(a.db)
    ensures a.Failed? ==> a.db.usage == db.usage
    ensures a.Done? ==> a.db.usage == db.usage + [SuccessUsage(userId, a.reply.tokensUsed, now)]
    ensures a.db.documents == db.documents
    ensures Validators.ParseChatMessage(body.message, body.documentId).Err? ==> a.db == db
    ensures Validators.ParseChatMessage(body.message, body.documentId).Ok? ==> a.db.settings == WithSettings(db, userId).settings
    ensures a.Failed? ==> a.db.sessions == db.sessions
    ensures a.Failed? && !a.error.CompletionError? ==> a.db.history == db.history
    ensures a.Done? ==> && body.sessionId.Some? && body.message.Some?
                        && a.db.sessions == UpdateSession(db, body.sessionId.value,
                             TitleUpdate(SessionById(db.sessions, body.sessionId.value), body.message.value), now).sessions
    ensures a.Done? ==> var input := Validators.ParseChatMessage(body.message, body.documentId).value;
                        var c := Llm.Completion(a.reply.message, a.reply.tokensUsed);
                        a.db.history == db.history + [TurnRow(UserTurn(userId, body, input), now), TurnRow(AssistantTurn(userId, body, input, c), now)]
  {
    match Validators.ParseChatMessage(body.message, body.documentId)
    case Err(issues) => Failed(db, InvalidBody(issues))
    case Ok(input) =>
      var settings := SettingsUsed(db, userId);
      var db1 := WithSettings(db, userId);
      match InsertTurn(db1, UserTurn(userId, body, input), now)
      case Err(e) => Failed(db1, StoreError(e))
      case Ok(db2) =>
        match Llm.GenerateChatCompletion(PromptFor(input.message), ConfigFor(settings), env, net)
        case Err(e) => Failed(db2, CompletionError(e))
        case Ok(c) =>
          match InsertTurn(db2, AssistantTurn(userId, body, input, c), now)
          case Err(e) => Failed(db2, StoreError(e))
          case Ok(db3) =>
            var sessionId := body.sessionId.value;
            var db4 := UpdateSession(db3, sessionId, TitleUpdate(SessionById(db3.sessions, sessionId), input.message), now);
            Done(InsertUsage(db4, SuccessUsage(userId, c.tokens, now)), ChatReply(c.content, c.tokens))
  }

  /**
   * The whole handler: 401 and no write without a user; otherwise the exchange, and on an error
   * the error usage row (when the store accepts it; a refusal is swallowed) and `CHAT_ERROR`.
   */
  function Exchange(db: Tables, user: Option<Id>, body: ChatRequestBody, env: Llm.Env, net: Llm.Network, now: Time,
                    errorLogAccepted: bool): (r: (Tables, Response<ChatReply>))
    ensures user.None? ==> r == (db, Unauthorized)
    ensures user.Some? ==> r.1 != Unauthorized
    ensures r.1.Failure? ==> r.1.code == "CHAT_ERROR" && r.1.Status() == 500
    ensures Consistent(db) ==> Consistent(r.0)
    ensures r.0.documents == db.documents
    ensures user.Some? ==> var a := RunExchange(db, user.value, body, env, net, now);
                           && r.0.sessions == a.db.sessions && r.0.settings == a.db.settings && r.0.history == a.db.history
                           && (r.1.Success? <==> a.Done?)
  {
    if user.None? then (db, Unauthorized)
    else
      match RunExchange(db, user.value, body, env, net, now)
      case Done(db', reply) => (db', Success(reply))
      case Failed(db', e) =>
        (if errorLogAccepted then InsertUsage(db', ErrorUsage(user.value, e, now)) else db', Failure("CHAT_ERROR", e.Message()))
  }

  // ---------------------------------------------------------------------------------------------
  // Properties of the exchange

  /** An invalid body is rejected before anything but the error usage row is written. */
  lemma {:induction false} InvalidBodyWritesOnlyUsage(db: Tables, user: Id, body: ChatRequestBody, env: Llm.Env, net: Llm.Network,
                                                      now: Time, errorLogAccepted: bool)
    requires Validators.ParseChatMessage(body.message, body.documentId).Err?
    ensures var (db', response) := Exchange(db, Some(user), body, env, net, now, errorLogAccepted);
            && db'.(usage := db.usage) == db
            && db'.usage == db.usage + (if errorLogAccepted then [ErrorUsage(user, InvalidBody(Validators.ParseChatMessage(body.message, body.documentId).error), now)] else [])
            && response.Failure? && response.code == "CHAT_ERROR"
  {
  }

  /**
   * A completion that fails leaves the user's turn stored and no assistant turn: the history
   * grows by exactly the user turn, the sessions are untouched, and the error is reported.
   */
  lemma {:induction false} FailedCompletionKeepsUserTurn(db: Tables, user: Id, body: ChatRequestBody, env: Llm.Env, net: Llm.Network,
                                                         now: Time, errorLogAccepted: bool)
    requires Validators.ParseChatMessage(body.message, body.documentId).Ok?
    requires InsertTurn(WithSettings(db, user), UserTurn(user, body, Validators.ParseChatMessage(body.message, body.documentId).value), now).Ok?
    requires Llm.GenerateChatCompletion(PromptFor(body.message.value), ConfigFor(SettingsUsed(db, user)), env, net).Err?
    ensures var input := Validators.ParseChatMessage(body.message, body.documentId).value;
            var e := Llm.GenerateChatCompletion(PromptFor(body.message.value), ConfigFor(SettingsUsed(db, user)), env, net).error;
            var (db', response) := Exchange(db, Some(user), body, env, net, now, errorLogAccepted);
            && db'.history == db.history + [TurnRow(UserTurn(user, body, input), now)]
            && db'.sessions == db.sessions
            && db'.usage == db.usage + (if errorLogAccepted then [ErrorUsage(user, CompletionError(e), now)] else [])
            && response == Failure("CHAT_ERROR", e.Message())
  {
  }

  /**
   * A user turn the store refuses (no `session_id`, an unknown session or an unknown document)
   * ends the exchange before the completion is asked for: no turn is written, the sessions are
   * untouched, only the lazily created settings row and the error usage row may be added, and
   * the store's error is reported.
   */
  lemma {:induction false} RefusedTurnWritesNoTurn(db: Tables, user: Id, body: ChatRequestBody, env: Llm.Env, net: Llm.Network,
                                                   now: Time, errorLogAccepted: bool)
    requires Validators.ParseChatMessage(body.message, body.documentId).Ok?
    requires InsertTurn(WithSettings(db, user), UserTurn(user, body, Validators.ParseChatMessage(body.message, body.documentId).value), now).Err?
    ensures var input := Validators.ParseChatMessage(body.message, body.documentId).value;
            var e := InsertTurn(WithSettings(db, user), UserTurn(user, body, input), now).error;
            var (db', response) := Exchange(db, Some(user), body, env, net, now, errorLogAccepted);
            && db'.history == db.history
            && db'.sessions == db.sessions
            && db'.settings == WithSettings(db, user).settings
            && db'.usage == db.usage + (if errorLogAccepted then [ErrorUsage(user, StoreError(e), now)] else [])
            && response == Failure("CHAT_ERROR", e.Message())
  {
    assert RunExchange(db, user, body, env, net, now).Failed?;
  }

  /**
   * A successful exchange appends exactly the user's turn and then the assistant's turn carrying
   * the token count (0 included), records one success usage row, and replies with the completion.
   */
  lemma {:induction false} SuccessfulExchange(db: Tables, user: Id, body: ChatRequestBody, env: Llm.Env, net: Llm.Network,
                                              now: Time, errorLogAccepted: bool)
    requires Validators.ParseChatMessage(body.message, body.documentId).Ok?
    requires InsertTurn(WithSettings(db, user), UserTurn(user, body, Validators.ParseChatMessage(body.message, body.documentId).value), now).Ok?
    requires Llm.GenerateChatCompletion(PromptFor(body.message.value), ConfigFor(SettingsUsed(db, user)), env, net).Ok?
    ensures var input := Validators.ParseChatMessage(body.message, body.documentId).value;
            var c := Llm.GenerateChatCompletion(PromptFor(body.message.value), ConfigFor(SettingsUsed(db, user)), env, net).value;
            var (db', response) := Exchange(db, Some(user), body, env, net, now, errorLogAccepted);
            && db'.history == db.history + [TurnRow(UserTurn(user, body, input), now), TurnRow(AssistantTurn(user, body, input, c), now)]
            && db'.history[|db.history| + 1].tokensUsed == Some(c.tokens)
            && db'.usage == db.usage + [SuccessUsage(user, c.tokens, now)]
            && response == Success(ChatReply(c.content, c.tokens))
  {
    var input := Validators.ParseChatMessage(body.message, body.documentId).value;
    var db2 := InsertTurn(WithSettings(db, user), UserTurn(user, body, input), now).value;
    assert SessionIds(db2.sessions) == SessionIds(WithSettings(db, user).sessions);
    assert RunExchange(db, user, body, env, net, now).Done?;
  }

  /** In a table with unique ids, an update by id changes the one row found by that id. */
  lemma {:induction false} UpdatedRow(sessions: seq<ChatSession>, i: nat, message: string, now: Time)
    requires UniqueSessionIds(sessions) && i < |sessions|
    ensures var t := Touched(sessions[i], sessions[i].id, TitleUpdate(SessionById(sessions, sessions[i].id), message), now);
            && t.updatedAt == now
            && t.title == if sessions[i].title == DefaultSessionTitle then AutoTitle(message) else sessions[i].title
  {
    SessionByIdUnique(sessions, i);
  }

  /**
   * The session-title rule. On every outcome, a title other than the placeholder is never
   * changed. On success, the exchange's session gets `updated_at = now`, and an automatic title
   * exactly when its title was still the placeholder; every other session is unchanged.
   */
  lemma {:induction false} TitleRule(db: Tables, user: Option<Id>, body: ChatRequestBody, env: Llm.Env, net: Llm.Network,
                                     now: Time, errorLogAccepted: bool)
    requires Consistent(db)
    ensures var (db', response) := Exchange(db, user, body, env, net, now, errorLogAccepted);
            && |db'.sessions| == |db.sessions|
            && (forall i :: 0 <= i < |db.sessions| && db.sessions[i].title != DefaultSessionTitle ==>
                  db'.sessions[i].title == db.sessions[i].title)
            && (response.Success? ==> forall i :: 0 <= i < |db.sessions| ==>
                  if db.sessions[i].id == body.sessionId.value then
                    && db'.sessions[i].updatedAt == now
                    && db'.sessions[i].title == (if db.sessions[i].title == DefaultSessionTitle then AutoTitle(body.message.value)
                                                 else db.sessions[i].title)
                  else db'.sessions[i] == db.sessions[i])
  {
    if user.Some? && RunExchange(db, user.value, body, env, net, now).Done? {
      var sessionId := body.sessionId.value;
      var update := TitleUpdate(SessionById(db.sessions, sessionId), body.message.value);
      forall i | 0 <= i < |db.sessions| && db.sessions[i].id == sessionId
        ensures var t := Touched(db.sessions[i], sessionId, update, now);
                t.updatedAt == now && t.title == if db.sessions[i].title == DefaultSessionTitle then AutoTitle(body.message.value) else db.sessions[i].title
      {
        UpdatedRow(db.sessions, i, body.message.value, now);
      }
    }
  }

  /** Once a session's title differs from the placeholder, no later exchange changes it. */
  lemma {:induction false} TitleSetOnce(db: Tables, i: nat, user1: Option<Id>, body1: ChatRequestBody, user2: Option<Id>,
                                        body2: ChatRequestBody, env: Llm.Env, net: Llm.Network, now1: Time, now2: Time, accepted: bool)
    requires Consistent(db) && i < |db.sessions|
    requires Exchange(db, user1, body1, env, net, now1, accepted).0.sessions[i].title != DefaultSessionTitle
    ensures var db1 := Exchange(db, user1, body1, env, net, now1, accepted).0;
            var db2 := Exchange(db1, user2, body2, env, net, now2, accepted).0;
            i < |db2.sessions| && db2.sessions[i].title == db1.sessions[i].title
  {
    TitleRule(db, user1, body1, env, net, now1, accepted);
    var db1 := Exchange(db, user1, body1, env, net, now1, accepted).0;
    TitleRule(db1, user2, body2, env, net, now2, accepted);
  }

  /** After the first store write of a validated exchange, the user has exactly one settings row. */
  lemma {:induction false} SettingsCreatedLazily(db: Tables, user: Id, body: ChatRequestBody, env: Llm.Env, net: Llm.Network,
                                                 now: Time, errorLogAccepted: bool)
    requires Consistent(db)
    requires Validators.ParseChatMessage(body.message, body.documentId).Ok?
    ensures var db' := Exchange(db, Some(user), body, env, net, now, errorLogAccepted).0;
            && user in SettingsOwners(db'.settings)
            && UniqueSettingsOwners(db'.settings)
            && (user in SettingsOwners(db.settings) ==> db'.settings == db.settings)
            && (user !in SettingsOwners(db.settings) ==> db'.settings == db.settings + [FirstSettings(user)])
  {
    var db1 := WithSettings(db, user);
    var a := RunExchange(db, user, body, env, net, now);
    assert a.db.settings == db1.settings;
    assert Exchange(db, Some(user), body, env, net, now, errorLogAccepted).0.settings == db1.settings;
    if user !in SettingsOwners(db.settings) {
      assert FirstSettings(user) in db1.settings;
    }
  }

  // ---------------------------------------------------------------------------------------------
  // The handler, step by step on the store

  /** The `try` block, statement by statement. */
  method Run(store: Db.Store, userId: Id, body: ChatRequestBody, env: Llm.Env, net: Llm.Network, now: Time)
    returns (outcome: Result<ChatReply, ExchangeError>)
    requires store.Valid()
    modifies store
    ensures store.Valid()
    ensures var a := RunExchange(old(store.Snapshot()), userId, body, env, net, now);
            && store.Snapshot() == a.db
            && (a.Done? ==> outcome == Ok(a.reply))
            && (a.Failed? ==> outcome == Err(a.error))
  {
    var input: Validators.ChatMessageInput;
    match Validators.ParseChatMessage(body.message, body.documentId)
    case Err(issues) => return Err(InvalidBody(issues));
    case Ok(parsed) => input := parsed;

    var settings := store.SelectSettings(userId);
    if settings.None? {
      var row := FirstSettings(userId);
      var _ := store.InsertSettings(row);
      settings := Some(row);
    }

    var err := store.InsertTurn(UserTurn(userId, body, input), now);
    if err.Some? {
      return Err(StoreError(err.value));
    }

    var completion := Llm.GenerateChatCompletion(PromptFor(input.message), ConfigFor(settings.value), env, net);
    if completion.Err? {
      return Err(CompletionError(completion.error));
    }
    var c := completion.value;

    err := store.InsertTurn(AssistantTurn(userId, body, input, c), now);
    if err.Some? {
      // The user's turn was just stored with the same session and document: no constraint can fail.
      assert false;
    }

    var sessionId := body.sessionId.value;
    var session := store.SelectSession(sessionId);
    if session.Some? && session.value.title == DefaultSessionTitle {
      store.UpdateSession(sessionId, Some(AutoTitle(input.message)), now);
    } else {
      store.UpdateSession(sessionId, None, now);
    }

    store.InsertUsage(SuccessUsage(userId, c.tokens, now));
    return Ok(ChatReply(c.content, c.tokens));
  }

  /** `POST /api/ai/chat`. */
  method Post(store: Db.Store, user: Option<Id>, body: ChatRequestBody, env: Llm.Env, net: Llm.Network, now: Time,
              errorLogAccepted: bool) returns (response: Response<ChatReply>)
    requires store.Valid()
    modifies store
    ensures store.Valid()
    ensures (store.Snapshot(), response) == Exchange(old(store.Snapshot()), user, body, env, net, now, errorLogAccepted)
  {
    if user.None? {
      return Unauthorized;
    }
    var outcome := Run(store, user.value, body, env, net, now);
    match outcome
    case Ok(reply) =>
      response := Success(reply);
    case Err(e) =>
      if errorLogAccepted {
        store.InsertUsage(ErrorUsage(user.value, e, now));
      }
      response := Failure("CHAT_ERROR", e.Message());
  }
}

=== FILE: db.dfy ===
/**
 * The database the route handlers talk to, held in memory: one field per table, and one method
 * per SQL statement the handlers issue. Each write either performs the statement as the pure
 * function of `Schema` describes it, or reports the constraint it would violate and changes
 * nothing; every write keeps the schema's constraints.
 */
module Db {
  import opened Wrappers
  import opened Schema

  class Store {
    var sessions: seq<ChatSession>
    var history: seq<ChatTurn>
    var settings: seq<UserSettings>
    var usage: seq<ApiUsage>
    var documents: seq<Document>

    /** The store's contents as a value. */
    function Snapshot(): Tables
      reads this
    {
      Tables(sessions, history, settings, usage, documents)
    }

    ghost predicate Valid()
      reads this
    {
      Consistent(Snapshot())
    }

    constructor ()
      ensures Valid() && Snapshot() == EmptyTables
    {
      sessions, history, settings, usage, documents := [], [], [], [], [];
    }

    /** `SELECT * FROM user_settings WHERE user_id = userId`, first row. */
    method SelectSettings(userId: Id) returns (row: Option<UserSettings>)
      ensures row == SettingsOf(settings, userId)
      ensures row.None? <==> userId !in SettingsOwners(settings)
    {
      row := SettingsOf(settings, userId);
    }

    /** `INSERT INTO user_settings ... RETURNING *`. */
    method InsertSettings(row: UserSettings) returns (err: Option<DbError>)
      requires Valid()
      modifies this
      ensures Valid()
      ensures err.None? <==> row.userId !in SettingsOwners(old(settings))
      ensures err.None? ==> Snapshot() == old(Snapshot()).(settings := old(settings) + [row])
      ensures err.Some? ==> Snapshot() == old(Snapshot())
    {
      match Schema.InsertSettings(Snapshot(), row)
      case Ok(db) => settings := db.settings; err := None;
      case Err(e) => err := Some(e);
    }

    /** `INSERT INTO chat_history`. */
    method InsertTurn(v: TurnValues, now: Time) returns (err: Option<DbError>)
      requires Valid()
      modifies this
      ensures Valid()
      ensures err.None? <==> Schema.InsertTurn(old(Snapshot()), v, now).Ok?
      ensures err.None? ==> v.sessionId.Some? && Snapshot() == old(Snapshot()).(history := old(history) + [TurnRow(v, now)])
      ensures err.Some? ==> Snapshot() == old(Snapshot()) && err.value == Schema.InsertTurn(old(Snapshot()), v, now).error
    {
      match Schema.InsertTurn(Snapshot(), v, now)
      case Ok(db) => history := db.history; err := None;
      case Err(e) => err := Some(e);
    }

    /** `SELECT * FROM chat_sessions WHERE id = id`, first row. */
    method SelectSession(id: Id) returns (row: Option<ChatSession>)
      ensures row == SessionById(sessions, id)
      ensures row.None? <==> id !in SessionIds(sessions)
    {
      row := SessionById(sessions, id);
    }

    /** `UPDATE chat_sessions SET [title,] updated_at WHERE id = id`. */
    method UpdateSession(id: Id, title: Option<string>, now: Time)
      requires Valid()
      modifies this
      ensures Valid()
      ensures Snapshot() == Schema.UpdateSession(old(Snapshot()), id, title, now)
      ensures |sessions| == |old(sessions)|
      ensures forall i :: 0 <= i < |sessions| ==> sessions[i] == Touched(old(sessions)[i], id, title, now)
    {
      sessions := Schema.UpdateSession(Snapshot(), id, title, now).sessions;
    }

    /** `INSERT INTO api_usage`. */
    method InsertUsage(row: ApiUsage)
      requires Valid()
      modifies this
      ensures Valid()
      ensures Snapshot() == old(Snapshot()).(usage := old(usage) + [row])
    {
      usage := usage + [row];
      assert Snapshot() == Schema.InsertUsage(old(Snapshot()), row);
    }

    /** `INSERT INTO chat_sessions ... RETURNING *`. */
    method InsertSession(row: ChatSession) returns (err: Option<DbError>)
      requires Valid()
      modifies this
      ensures Valid()
      ensures err.None? <==> row.id !in SessionIds(old(sessions))
      ensures err.None? ==> Snapshot() == old(Snapshot()).(sessions := old(sessions) + [row])
      ensures err.Some? ==> Snapshot() == old(Snapshot())
    {
      match Schema.InsertSession(Snapshot(), row)
      case Ok(db) => sessions := db.sessions; err := None;
      case Err(e) => err := Some(e);
    }

    /** `DELETE FROM chat_history WHERE user_id = userId`. */
    method DeleteHistoryOf(userId: Id)
      requires Valid()
      modifies this
      ensures Valid()
      ensures Snapshot() == Schema.DeleteHistoryOf(old(Snapshot()), userId)
    {
      history := Schema.DeleteHistoryOf(Snapshot(), userId).history;
    }
  }
}

=== FILE: history_route.dfy ===
/**
 * The caller's chat history across all sessions (app/api/ai/chat/history/route.ts): `GET` shows
 * the 50 most recent turns, oldest first; `DELETE` removes every turn of the caller. Whether the
 * database answers is the parameter `dbOk`.
 */
module HistoryRoute {
  import opened Wrappers
  import opened Schema
  import opened Http
  import Ordering
  import Db

  /** `LIMIT 50`. */
  const WindowSize: nat := 50

  const HistoryErrorCode: string := "HISTORY_ERROR"
  /** "Failed to load the history." */
  const HistoryErrorMessage: string := "히스토리를 불러오는데 실패했습니다"
  const DeleteErrorCode: string := "DELETE_ERROR"
  /** "Failed to delete the conversation history." */
  const DeleteErrorMessage: string := "대화 기록 삭제에 실패했습니다"
  /** "The conversation history was deleted." */
  const DeletedMessage: string := "대화 기록이 삭제되었습니다"

  function CreatedAt(t: ChatTurn): int { t.createdAt }

  function OwnedBy(userId: Id): ChatTurn -> bool {
    (t: ChatTurn) => t.userId == userId
  }

  /**
   * `WHERE user_id = userId ORDER BY created_at DESC LIMIT 50`, then reversed: the caller's turns
   * only, as many as the caller has up to 50, oldest first; no turn of the caller that is left
   * out is newer than a turn shown.
   */
  function Window(history: seq<ChatTurn>, userId: Id): (r: seq<ChatTurn>)
    ensures forall i :: 0 <= i < |r| ==> r[i].userId == userId
    ensures |r| == if |Ordering.Filter(history, OwnedBy(userId))| < WindowSize then |Ordering.Filter(history, OwnedBy(userId))| else WindowSize
    ensures Ordering.NonDecreasing(r, CreatedAt)
    ensures multiset(r) <= multiset(Ordering.Filter(history, OwnedBy(userId)))
    ensures forall t, u :: t in r && u in multiset(Ordering.Filter(history, OwnedBy(userId))) - multiset(r) ==> CreatedAt(u) <= CreatedAt(t)
  {
    var mine := Ordering.Filter(history, OwnedBy(userId));
    var r := Ordering.Latest(mine, CreatedAt, WindowSize);
    forall i | 0 <= i < |r| ensures r[i].userId == userId {
      assert multiset(mine)[r[i]] > 0;
      assert OwnedBy(userId)(r[i]);
    }
    r
  }

  /** `GET /api/ai/chat/history`. */
  function Get(db: Tables, user: Option<Id>, dbOk: bool): (r: Response<seq<ChatTurn>>)
    ensures user.None? <==> r == Unauthorized
    ensures r.Failure? <==> user.Some? && !dbOk
    ensures r.Failure? ==> r.code == HistoryErrorCode && r.message == HistoryErrorMessage && r.Status() == 500
    ensures r.Success? ==> |r.data| <= WindowSize && forall i :: 0 <= i < |r.data| ==> r.data[i].userId == user.value
    ensures r.Success? ==> Ordering.NonDecreasing(r.data, CreatedAt)
    ensures r.Success? ==> r.data == Window(db.history, user.value)
  {
    if user.None? then Unauthorized
    else if !dbOk then Failure(HistoryErrorCode, HistoryErrorMessage)
    else Success(Window(db.history, user.value))
  }

  /**
   * `DELETE /api/ai/chat/history`: 401 and no change without a user, a 500 and no change when the
   * database fails; otherwise the caller's turns are gone and nothing else changes.
   */
  function Clear(db: Tables, user: Option<Id>, dbOk: bool): (r: (Tables, Response<string>))
    ensures user.None? <==> r.1 == Unauthorized
    ensures r.1.Failure? <==> user.Some? && !dbOk
    ensures r.1.Failure? ==> r.1.code == DeleteErrorCode && r.1.message == DeleteErrorMessage && r.1.Status() == 500
    ensures !r.1.Success? ==> r.0 == db
    ensures r.1.Success? ==>
              && r.1.data == DeletedMessage
              && r.0.(history := db.history) == db
              && (forall t :: t in r.0.history ==> t.userId != user.value)
              && (forall t: ChatTurn :: t.userId != user.value ==> multiset(r.0.history)[t] == multiset(db.history)[t])
    ensures Consistent(db) ==> Consistent(r.0)
  {
    if user.None? then (db, Unauthorized)
    else if !dbOk then (db, Failure(DeleteErrorCode, DeleteErrorMessage))
    else (DeleteHistoryOf(db, user.value), Success(DeletedMessage))
  }

  /** Keeping other users' turns and then one user's keeps that user's turns, in order, when the users differ. */
  lemma {:induction false} FilterAfterDelete(history: seq<ChatTurn>, deleted: Id, other: Id)
    requires deleted != other
    ensures Ordering.Filter(Ordering.Filter(history, NotOwnedBy(deleted)), OwnedBy(other)) == Ordering.Filter(history, OwnedBy(other))
  {
    if history != [] {
      FilterAfterDelete(history[1..], deleted, other);
    }
  }

  /** After a successful `DELETE` the caller's window is empty and every other user's window is as before. */
  lemma {:induction false} ClearEmptiesOnlyCallersWindow(db: Tables, user: Id, other: Id)
    requires other != user
    ensures var db' := Clear(db, Some(user), true).0;
            Window(db'.history, user) == [] && Window(db'.history, other) == Window(db.history, other)
  {
    FilterAfterDelete(db.history, user, other);
    var db' := Clear(db, Some(user), true).0;
    var w := Window(db'.history, user);
    if w != [] {
      assert w[0] in db'.history by {
        assert multiset(w)[w[0]] > 0;
      }
    }
  }

  /** `DELETE`, performed on the store. */
  method Delete(store: Db.Store, user: Option<Id>, dbOk: bool) returns (response: Response<string>)
    requires store.Valid()
    modifies store
    ensures store.Valid()
    ensures (store.Snapshot(), response) == Clear(old(store.Snapshot()), user, dbOk)
  {
    if user.None? {
      return Unauthorized;
    }
    if !dbOk {
      return Failure(DeleteErrorCode, DeleteErrorMessage);
    }
    store.DeleteHistoryOf(user.value);
    return Success(DeletedMessage);
  }
}

=== FILE: http.dfy ===
/** The JSON responses the route handlers send back. */
module Http {

  /**
   * A handler's response: 401 with an authentication error, 200 with `{success: true, data}`,
   * or a status-500 `{success: false, error: {code, message}}`.
   */
  datatype Response<T> = Unauthorized | Success(data: T) | Failure(code: string, message: string) {

    /** The HTTP status code the response is sent with. */
    function Status(): (s: nat)
      ensures s == 200 <==> Success?
      ensures s == 401 <==> Unauthorized?
      ensures s == 500 <==> Failure?
    {
      match this
      case Unauthorized => 401
      case Success(_) => 200
      case Failure(_, _) => 500
    }
  }
}

=== FILE: llm.dfy ===
/**
 * The provider-neutral chat completion (lib/llm.ts): one entry point that dispatches on a
 * provider tag to five adapters. Each adapter shapes a request for its backend, hands it to
 * that backend (an oracle here: the SDK or HTTP call), and reads the reply back into
 * `{content, tokens}`.
 */
module Llm {
  import opened Wrappers
  import Ordering

  datatype Role = System | User | Assistant

  /** A provider-neutral chat message. */
  datatype ChatMessage = ChatMessage(role: Role, content: string)

  /** The five backends the dispatcher knows. */
  datatype Provider = OpenAI | Google | Claude | Ollama | LMStudio

  /** The tag under which a provider is stored in the user's settings. */
  function Tag(p: Provider): string {
    match p
    case OpenAI => "openai"
    case Google => "google"
    case Claude => "claude"
    case Ollama => "ollama"
    case LMStudio => "lmstudio"
  }

  /** The provider a stored tag names, if any; the tag is free text in the store. */
  function ParseProvider(tag: string): (p: Option<Provider>)
    ensures p.Some? ==> Tag(p.value) == tag
  {
    match tag
    case "openai" => Some(OpenAI)
    case "google" => Some(Google)
    case "claude" => Some(Claude)
    case "ollama" => Some(Ollama)
    case "lmstudio" => Some(LMStudio)
    case _ => None
  }

  /** Tags and providers are in one-to-one correspondence: every tag parses back to its provider. */
  lemma {:induction false} TagRoundTrip(p: Provider, tag: string)
    ensures ParseProvider(Tag(p)) == Some(p)
    ensures ParseProvider(tag).None? <==> forall q: Provider :: Tag(q) != tag
  {
    match p
    case OpenAI =>
    case Google =>
    case Claude =>
    case Ollama =>
    case LMStudio =>
    if ParseProvider(tag).None? {
      forall q: Provider ensures Tag(q) != tag {
        match q
        case OpenAI =>
        case Google =>
        case Claude =>
        case Ollama =>
        case LMStudio =>
      }
    }
  }

  /** The model each adapter uses when the configured model is absent or empty. */
  function DefaultModel(p: Provider): string {
    match p
    case OpenAI => "gpt-4-turbo-preview"
    case Google => "gemini-pro"
    case Claude => "claude-3-5-sonnet-20241022"
    case Ollama => "llama2"
    case LMStudio => "kimi-k2-thinking"
  }

  const OllamaDefaultBaseUrl: string := "http://localhost:11434"
  const LMStudioDefaultBaseUrl: string := "http://localhost:1234"
  const OllamaChatPath: string := "/api/chat"
  const LMStudioChatPath: string := "/v1/chat/completions"

  /** The output-token cap every hosted request and the LM Studio request carry. */
  const MaxTokens: nat := 1000

  /** What the dispatcher is asked to use; `provider` is the raw stored tag. */
  datatype LlmConfig = LlmConfig(provider: string, model: string, apiKey: Option<string>, baseUrl: Option<string>)

  /** The process environment's fallback API keys (`OPENAI_API_KEY`, `GOOGLE_API_KEY`, `CLAUDE_API_KEY`). */
  datatype Env = Env(openaiApiKey: Option<string>, googleApiKey: Option<string>, claudeApiKey: Option<string>)

  /** JavaScript truthiness of an optional string: present and non-empty. */
  predicate Truthy(s: Option<string>) {
    s.Some? && s.value != ""
  }

  /** JavaScript `a || b` on optional strings. */
  function Or(a: Option<string>, b: Option<string>): (r: Option<string>)
    ensures Truthy(a) ==> r == a
    ensures !Truthy(a) ==> r == b
  {
    if Truthy(a) then a else b
  }

  /** `config.model || fallback`. */
  function ModelOr(model: string, fallback: string): (m: string)
    ensures model != "" ==> m == model
    ensures model == "" ==> m == fallback
  {
    if model != "" then model else fallback
  }

  /** `(config.baseUrl || fallback) + path`: the URL a self-hosted adapter posts to. */
  function EndpointUrl(baseUrl: Option<string>, fallback: string, path: string): (url: string)
    ensures Truthy(baseUrl) ==> url == baseUrl.value + path
    ensures !Truthy(baseUrl) ==> url == fallback + path
    ensures |url| >= |path| && url[|url| - |path|..] == path
  {
    (if Truthy(baseUrl) then baseUrl.value else fallback) + path
  }

  // ---------------------------------------------------------------------------------------------
  // Message-list helpers shared by the Gemini and Claude adapters

  /** The content of the first system message (`messages.find(m => m.role === 'system')`). */
  function FirstSystem(messages: seq<ChatMessage>): (r: Option<string>)
    ensures r.None? <==> forall i :: 0 <= i < |messages| ==> messages[i].role != System
    ensures r.Some? ==> exists i :: 0 <= i < |messages| && messages[i] == ChatMessage(System, r.value)
                                    && forall j :: 0 <= j < i ==> messages[j].role != System
  {
    if messages == [] then None
    else if messages[0].role == System then
      assert messages[0] == ChatMessage(System, messages[0].content);
      Some(messages[0].content)
    else
      var r := FirstSystem(messages[1..]);
      assert forall i :: 0 < i < |messages| ==> messages[i] == messages[1..][i - 1];
      if r.Some? then
        var k :| 0 <= k < |messages[1..]| && messages[1..][k] == ChatMessage(System, r.value)
                 && forall j :: 0 <= j < k ==> messages[1..][j].role != System;
        assert messages[k + 1] == ChatMessage(System, r.value);
        r
      else r
  }

  /** Every role but `system`. */
  predicate Conversational(m: ChatMessage) {
    m.role != System
  }

  /**
   * The non-system messages in their original order (`messages.filter(m => m.role !== 'system')`):
   * no system message, every non-system one, and a list without system messages returned
   * unchanged. `NonSystemCounts` states the multiplicities and `NonSystemConcat` the order.
   */
  function NonSystem(messages: seq<ChatMessage>): (r: seq<ChatMessage>)
    ensures forall i :: 0 <= i < |r| ==> r[i].role != System
    ensures forall m :: m in r <==> m in messages && m.role != System
    ensures |r| <= |messages|
    ensures (forall i :: 0 <= i < |messages| ==> messages[i].role != System) ==> r == messages
  {
    Ordering.FilterCounts(messages, Conversational);
    Ordering.FilterKeepsAll(messages, Conversational);
    var r := Ordering.Filter(messages, Conversational);
    assert forall m :: m in r <==> m in messages && m.role != System by {
      forall m ensures m in r <==> m in messages && m.role != System {
        assert m in r <==> multiset(r)[m] > 0;
        assert m in messages <==> multiset(messages)[m] > 0;
      }
    }
    r
  }

  /** `filter` keeps each non-system message as often as it occurs, and no system message. */
  lemma NonSystemCounts(messages: seq<ChatMessage>)
    ensures forall m :: multiset(NonSystem(messages))[m] == if m.role != System then multiset(messages)[m] else 0
  {
    Ordering.FilterCounts(messages, Conversational);
  }

  /** `filter` keeps the order: the non-system messages of `a + b` are those of `a` followed by those of `b`. */
  lemma {:induction false} NonSystemConcat(a: seq<ChatMessage>, b: seq<ChatMessage>)
    ensures NonSystem(a + b) == NonSystem(a) + NonSystem(b)
  {
    Ordering.FilterConcat(a, b, Conversational);
  }

  // ---------------------------------------------------------------------------------------------
  // Requests, one shape per backend

  datatype OpenAIRequest = OpenAIRequest(apiKey: Option<string>, model: string, messages: seq<ChatMessage>, maxTokens: nat)

  /** Gemini's chat roles: assistant turns are called `model`. */
  datatype GeminiRole = GeminiUser | GeminiModel
  datatype GeminiTurn = GeminiTurn(role: GeminiRole, text: string)
  /** `startChat({history, generationConfig})` followed by `sendMessage(prompt)`. */
  datatype GeminiRequest = GeminiRequest(apiKey: string, model: string, history: seq<GeminiTurn>, maxOutputTokens: nat, prompt: string)

  datatype ClaudeRole = ClaudeUser | ClaudeAssistant
  datatype ClaudeTurn = ClaudeTurn(role: ClaudeRole, content: string)
  datatype ClaudeRequest = ClaudeRequest(apiKey: Option<string>, model: string, maxTokens: nat, system: Option<string>, messages: seq<ClaudeTurn>)

  datatype OllamaRequest = OllamaRequest(url: string, model: string, messages: seq<ChatMessage>, stream: bool)
  datatype LMStudioRequest = LMStudioRequest(url: string, model: string, messages: seq<ChatMessage>, maxTokens: nat)

  // ---------------------------------------------------------------------------------------------
  // Replies, one shape per backend

  /** What an awaited SDK or network call gives back: a value, or a rejection with its message. */
  datatype Outcome<R> = Returned(response: R) | Rejected(message: string)

  /** `choices[k].message.content` (null allowed) and `usage?.total_tokens`. */
  datatype OpenAIResponse = OpenAIResponse(choices: seq<Option<string>>, totalTokens: Option<nat>)
  /** `response.text()`. */
  datatype GeminiResponse = GeminiResponse(text: string)
  /** A Claude content block: text, or any other kind (tool use and the like). */
  datatype ContentBlock = TextBlock(text: string) | OtherBlock
  datatype ClaudeResponse = ClaudeResponse(content: seq<ContentBlock>, inputTokens: nat, outputTokens: nat)
  /** A `fetch` response: `ok`, `statusText` and what `response.json()` yields. */
  datatype HttpResponse<B> = HttpResponse(ok: bool, statusText: string, json: Outcome<B>)
  /** Ollama's body: `message.content` (the `message` object may be missing) and `eval_count`. */
  datatype OllamaBody = OllamaBody(message: Option<string>, evalCount: Option<nat>)
  /** LM Studio's body: `choices[k].message.content` and `usage?.total_tokens`. */
  datatype LMStudioBody = LMStudioBody(choices: seq<string>, totalTokens: Option<nat>)

  /** The five backends, each a function from its request to what the awaited call yields. */
  datatype Network = Network(
    openai: OpenAIRequest -> Outcome<OpenAIResponse>,
    google: GeminiRequest -> Outcome<GeminiResponse>,
    claude: ClaudeRequest -> Outcome<ClaudeResponse>,
    ollama: OllamaRequest -> Outcome<HttpResponse<OllamaBody>>,
    lmstudio: LMStudioRequest -> Outcome<HttpResponse<LMStudioBody>>)

  /** The normalised result of every adapter. */
  datatype Completion = Completion(content: string, tokens: nat)

  /** What a completion can raise. */
  datatype LlmError =
    | UnsupportedProvider(tag: string)
    | ApiError(service: string, statusText: string)
    | ClientError(message: string)
    | UndefinedProperty(property: string)
  {
    /** The error's `message`, as the caller sees it. */
    function Message(): string {
      match this
      case UnsupportedProvider(tag) => "Unsupported provider: " + tag
      case ApiError(service, statusText) => service + " API error: " + statusText
      case ClientError(message) => message
      case UndefinedProperty(property) => "Cannot read properties of undefined (reading '" + property + "')"
    }
  }

  // ---------------------------------------------------------------------------------------------
  // OpenAI

  function OpenAIRequestFor(messages: seq<ChatMessage>, config: LlmConfig, env: Env): (r: OpenAIRequest)
    ensures r.messages == messages
    ensures config.model != "" ==> r.model == config.model
    ensures config.model == "" ==> r.model == "gpt-4-turbo-preview"
    ensures Truthy(config.apiKey) ==> r.apiKey == config.apiKey
    ensures !Truthy(config.apiKey) ==> r.apiKey == env.openaiApiKey
    ensures r.maxTokens == 1000
  {
    OpenAIRequest(Or(config.apiKey, env.openaiApiKey), ModelOr(config.model, DefaultModel(OpenAI)), messages, MaxTokens)
  }

  function ReadOpenAI(reply: Outcome<OpenAIResponse>): (r: Result<Completion, LlmError>)
    ensures reply.Rejected? ==> r == Err(ClientError(reply.message))
    ensures reply.Returned? && reply.response.choices == [] ==> r == Err(UndefinedProperty("message"))
    ensures reply.Returned? && reply.response.choices != [] ==> r.Ok?
    ensures r.Ok? ==> r.value.content == reply.response.choices[0].GetOr("")
    ensures r.Ok? ==> r.value.tokens == reply.response.totalTokens.GetOr(0)
  {
    match reply
    case Rejected(message) => Err(ClientError(message))
    case Returned(response) =>
      if response.choices == [] then Err(UndefinedProperty("message"))
      else Ok(Completion(response.choices[0].GetOr(""), response.totalTokens.GetOr(0)))
  }

  /** `generateOpenAI`: the caller's messages go to the OpenAI backend unchanged, and its answer is read back. */
  function GenerateOpenAI(messages: seq<ChatMessage>, config: LlmConfig, env: Env, net: Network): (r: Result<Completion, LlmError>)
    ensures var reply := net.openai(OpenAIRequestFor(messages, config, env));
            && (reply.Rejected? ==> r == Err(ClientError(reply.message)))
            && (reply.Returned? && reply.response.choices == [] ==> r == Err(UndefinedProperty("message")))
            && (reply.Returned? && reply.response.choices != [] ==>
                  r == Ok(Completion(reply.response.choices[0].GetOr(""), reply.response.totalTokens.GetOr(0))))
  {
    ReadOpenAI(net.openai(OpenAIRequestFor(messages, config, env)))
  }

  // ---------------------------------------------------------------------------------------------
  // Google Gemini

  function GeminiTurnOf(m: ChatMessage): (t: GeminiTurn)
    ensures t.text == m.content
    ensures t.role == GeminiModel <==> m.role == Assistant
  {
    GeminiTurn(if m.role == Assistant then GeminiModel else GeminiUser, m.content)
  }

  /**
   * Gemini has no system role: the system text is prepended to the last non-system message,
   * and the other non-system messages become the chat history. With no non-system message
   * there is no last message, and reading its `content` raises.
   */
  function GeminiRequestFor(messages: seq<ChatMessage>, config: LlmConfig, env: Env): (r: Result<GeminiRequest, LlmError>)
    ensures r.Err? <==> NonSystem(messages) == []
    ensures r.Err? ==> r.error == UndefinedProperty("content")
    ensures r.Ok? ==> var turns := NonSystem(messages);
      && |r.value.history| == |turns| - 1
      && (forall i :: 0 <= i < |r.value.history| ==> r.value.history[i] == GeminiTurnOf(turns[i]))
      && (FirstSystem(messages).None? ==> r.value.prompt == turns[|turns| - 1].content)
      && (FirstSystem(messages).Some? ==>
            r.value.prompt == FirstSystem(messages).value + "\n\n" + turns[|turns| - 1].content)
    ensures r.Ok? && config.model != "" ==> r.value.model == config.model
    ensures r.Ok? && config.model == "" ==> r.value.model == "gemini-pro"
    ensures r.Ok? ==> r.value.apiKey == Or(config.apiKey, env.googleApiKey).GetOr("")
  {
    var turns := NonSystem(messages);
    if turns == [] then Err(UndefinedProperty("content"))
    else
      var last := turns[|turns| - 1];
      var system := FirstSystem(messages);
      var prompt := if system.Some? then system.value + "\n\n" + last.content else last.content;
      Ok(GeminiRequest(Or(config.apiKey, env.googleApiKey).GetOr(""), ModelOr(config.model, DefaultModel(Google)),
                       seq(|turns| - 1, i requires 0 <= i < |turns| - 1 => GeminiTurnOf(turns[i])),
                       MaxTokens, prompt))
  }

  function ChatMessageOfGemini(t: GeminiTurn): ChatMessage {
    ChatMessage(if t.role == GeminiModel then Assistant else User, t.text)
  }

  /**
   * Nothing of the conversation is lost in the Gemini request: mapping the history back and
   * appending the last message gives exactly the non-system messages, and the prompt ends with
   * that last message's text.
   */
  lemma {:induction false} GeminiRequestLossless(messages: seq<ChatMessage>, config: LlmConfig, env: Env)
    requires GeminiRequestFor(messages, config, env).Ok?
    ensures var req := GeminiRequestFor(messages, config, env).value;
            var turns := NonSystem(messages);
            && seq(|req.history|, i requires 0 <= i < |req.history| => ChatMessageOfGemini(req.history[i])) + [turns[|turns| - 1]] == turns
            && |req.prompt| >= |turns[|turns| - 1].content|
            && req.prompt[|req.prompt| - |turns[|turns| - 1].content|..] == turns[|turns| - 1].content
  {
    var req := GeminiRequestFor(messages, config, env).value;
    var turns := NonSystem(messages);
    var back := seq(|req.history|, i requires 0 <= i < |req.history| => ChatMessageOfGemini(req.history[i]));
    assert forall i :: 0 <= i < |back| ==> back[i] == turns[i] by {
      forall i | 0 <= i < |back| ensures back[i] == turns[i] {
        assert turns[i].role != System;
      }
    }
    assert back + [turns[|turns| - 1]] == turns;
  }

  function ReadGemini(reply: Outcome<GeminiResponse>): (r: Result<Completion, LlmError>)
    ensures reply.Rejected? ==> r == Err(ClientError(reply.message))
    ensures reply.Returned? ==> r == Ok(Completion(reply.response.text, 0))
  {
    match reply
    case Rejected(message) => Err(ClientError(message))
    case Returned(response) => Ok(Completion(response.text, 0))
  }

  /**
   * `generateGoogle`: with no non-system message the request cannot be built and nothing is sent;
   * otherwise the Gemini backend's text comes back with 0 tokens.
   */
  function GenerateGoogle(messages: seq<ChatMessage>, config: LlmConfig, env: Env, net: Network): (r: Result<Completion, LlmError>)
    ensures NonSystem(messages) == [] ==> r == Err(UndefinedProperty("content"))
    ensures NonSystem(messages) != [] ==>
              var reply := net.google(GeminiRequestFor(messages, config, env).value);
              && (reply.Rejected? ==> r == Err(ClientError(reply.message)))
              && (reply.Returned? ==> r == Ok(Completion(reply.response.text, 0)))
    ensures r.Ok? ==> r.value.tokens == 0
  {
    match GeminiRequestFor(messages, config, env)
    case Err(e) => Err(e)
    case Ok(request) => ReadGemini(net.google(request))
  }

  // ---------------------------------------------------------------------------------------------
  // Anthropic Claude

  function ClaudeTurnOf(m: ChatMessage): (t: ClaudeTurn)
    ensures t.content == m.content
    ensures t.role == ClaudeAssistant <==> m.role == Assistant
  {
    ClaudeTurn(if m.role == Assistant then ClaudeAssistant else ClaudeUser, m.content)
  }

  /**
   * Claude takes the system prompt as a separate field: the first system message's content goes
   * there, and the turn list holds every non-system message in order, assistant kept and every
   * other role sent as user.
   */
  function ClaudeRequestFor(messages: seq<ChatMessage>, config: LlmConfig, env: Env): (r: ClaudeRequest)
    ensures r.system.Some? <==> exists i :: 0 <= i < |messages| && messages[i].role == System
    ensures r.system.Some? ==> exists i :: 0 <= i < |messages| && messages[i] == ChatMessage(System, r.system.value)
                                           && forall j :: 0 <= j < i ==> messages[j].role != System
    ensures |r.messages| == |NonSystem(messages)|
    ensures forall i :: 0 <= i < |r.messages| ==> r.messages[i] == ClaudeTurnOf(NonSystem(messages)[i])
    ensures config.model != "" ==> r.model == config.model
    ensures config.model == "" ==> r.model == "claude-3-5-sonnet-20241022"
    ensures r.apiKey == Or(config.apiKey, env.claudeApiKey)
    ensures r.maxTokens == 1000
  {
    var turns := NonSystem(messages);
    ClaudeRequest(Or(config.apiKey, env.claudeApiKey), ModelOr(config.model, DefaultModel(Claude)), MaxTokens,
                  FirstSystem(messages), seq(|turns|, i requires 0 <= i < |turns| => ClaudeTurnOf(turns[i])))
  }

  function ChatMessageOfClaude(t: ClaudeTurn): ChatMessage {
    ChatMessage(if t.role == ClaudeAssistant then Assistant else User, t.content)
  }

  /**
   * The Claude turn list carries the non-system messages without loss: mapping it back gives
   * exactly `NonSystem(messages)`; and no system message reaches the turn list.
   */
  lemma {:induction false} ClaudeTurnsLossless(messages: seq<ChatMessage>, config: LlmConfig, env: Env)
    ensures var req := ClaudeRequestFor(messages, config, env);
            seq(|req.messages|, i requires 0 <= i < |req.messages| => ChatMessageOfClaude(req.messages[i])) == NonSystem(messages)
  {
    var req := ClaudeRequestFor(messages, config, env);
    var turns := NonSystem(messages);
    var back := seq(|req.messages|, i requires 0 <= i < |req.messages| => ChatMessageOfClaude(req.messages[i]));
    forall i | 0 <= i < |back| ensures back[i] == turns[i] {
      assert turns[i].role != System;
    }
  }

  function ReadClaude(reply: Outcome<ClaudeResponse>): (r: Result<Completion, LlmError>)
    ensures reply.Rejected? ==> r == Err(ClientError(reply.message))
    ensures reply.Returned? && reply.response.content == [] ==> r == Err(UndefinedProperty("type"))
    ensures reply.Returned? && reply.response.content != [] ==> r.Ok?
    ensures r.Ok? ==> r.value.tokens == reply.response.inputTokens + reply.response.outputTokens
    ensures r.Ok? && reply.response.content[0].TextBlock? ==> r.value.content == reply.response.content[0].text
    ensures r.Ok? && reply.response.content[0].OtherBlock? ==> r.value.content == ""
  {
    match reply
    case Rejected(message) => Err(ClientError(message))
    case Returned(response) =>
      if response.content == [] then Err(UndefinedProperty("type"))
      else
        var first := response.content[0];
        Ok(Completion(if first.TextBlock? then first.text else "", response.inputTokens + response.outputTokens))
  }

  /** `generateClaude`: the Claude backend gets the split request, and its first block and token counts come back. */
  function GenerateClaude(messages: seq<ChatMessage>, config: LlmConfig, env: Env, net: Network): (r: Result<Completion, LlmError>)
    ensures var reply := net.claude(ClaudeRequestFor(messages, config, env));
            && (reply.Rejected? ==> r == Err(ClientError(reply.message)))
            && (reply.Returned? && reply.response.content == [] ==> r == Err(UndefinedProperty("type")))
            && (reply.Returned? && reply.response.content != [] ==>
                  r.Ok? && r.value.tokens == reply.response.inputTokens + reply.response.outputTokens)
  {
    ReadClaude(net.claude(ClaudeRequestFor(messages, config, env)))
  }

  // ---------------------------------------------------------------------------------------------
  // Ollama and LM Studio (self-hosted, plain HTTP)

  function OllamaRequestFor(messages: seq<ChatMessage>, config: LlmConfig): (r: OllamaRequest)
    ensures r.messages == messages
    ensures Truthy(config.baseUrl) ==> r.url == config.baseUrl.value + OllamaChatPath
    ensures !Truthy(config.baseUrl) ==> r.url == OllamaDefaultBaseUrl + OllamaChatPath
    ensures config.model != "" ==> r.model == config.model
    ensures config.model == "" ==> r.model == "llama2"
    ensures !r.stream
  {
    OllamaRequest(EndpointUrl(config.baseUrl, OllamaDefaultBaseUrl, OllamaChatPath),
                  ModelOr(config.model, DefaultModel(Ollama)), messages, false)
  }

  function ReadOllama(reply: Outcome<HttpResponse<OllamaBody>>): (r: Result<Completion, LlmError>)
    ensures reply.Rejected? ==> r == Err(ClientError(reply.message))
    ensures reply.Returned? && !reply.response.ok ==> r == Err(ApiError("Ollama", reply.response.statusText))
    ensures reply.Returned? && reply.response.ok && reply.response.json.Rejected? ==> r == Err(ClientError(reply.response.json.message))
    ensures reply.Returned? && reply.response.ok && reply.response.json.Returned? ==>
              var body := reply.response.json.response;
              && (body.message.None? ==> r == Err(UndefinedProperty("content")))
              && (body.message.Some? ==> r == Ok(Completion(body.message.value, body.evalCount.GetOr(0))))
    ensures r.Ok? ==> reply.Returned? && reply.response.ok && reply.response.json.Returned?
    ensures r.Ok? ==> var body := reply.response.json.response;
                      body.message == Some(r.value.content) && r.value.tokens == body.evalCount.GetOr(0)
  {
    match reply
    case Rejected(message) => Err(ClientError(message))
    case Returned(response) =>
      if !response.ok then Err(ApiError("Ollama", response.statusText))
      else match response.json
        case Rejected(message) => Err(ClientError(message))
        case Returned(body) =>
          if body.message.None? then Err(UndefinedProperty("content"))
          else Ok(Completion(body.message.value, body.evalCount.GetOr(0)))
  }

  /** `generateOllama`: the caller's messages are posted unchanged, and a well-formed ok reply gives its message and `eval_count || 0`. */
  function GenerateOllama(messages: seq<ChatMessage>, config: LlmConfig, net: Network): (r: Result<Completion, LlmError>)
    ensures var reply := net.ollama(OllamaRequestFor(messages, config));
            && (reply.Rejected? ==> r == Err(ClientError(reply.message)))
            && (reply.Returned? && !reply.response.ok ==> r == Err(ApiError("Ollama", reply.response.statusText)))
            && (reply.Returned? && reply.response.ok && reply.response.json.Returned? && reply.response.json.response.message.Some? ==>
                  r == Ok(Completion(reply.response.json.response.message.value, reply.response.json.response.evalCount.GetOr(0))))
  {
    ReadOllama(net.ollama(OllamaRequestFor(messages, config)))
  }

  function LMStudioRequestFor(messages: seq<ChatMessage>, config: LlmConfig): (r: LMStudioRequest)
    ensures r.messages == messages
    ensures Truthy(config.baseUrl) ==> r.url == config.baseUrl.value + LMStudioChatPath
    ensures !Truthy(config.baseUrl) ==> r.url == LMStudioDefaultBaseUrl + LMStudioChatPath
    ensures config.model != "" ==> r.model == config.model
    ensures config.model == "" ==> r.model == "kimi-k2-thinking"
    ensures r.maxTokens == 1000
  {
    LMStudioRequest(EndpointUrl(config.baseUrl, LMStudioDefaultBaseUrl, LMStudioChatPath),
                    ModelOr(config.model, DefaultModel(LMStudio)), messages, MaxTokens)
  }

  function ReadLMStudio(reply: Outcome<HttpResponse<LMStudioBody>>): (r: Result<Completion, LlmError>)
    ensures reply.Rejected? ==> r == Err(ClientError(reply.message))
    ensures reply.Returned? && !reply.response.ok ==> r == Err(ApiError("LM Studio", reply.response.statusText))
    ensures reply.Returned? && reply.response.ok && reply.response.json.Rejected? ==> r == Err(ClientError(reply.response.json.message))
    ensures reply.Returned? && reply.response.ok && reply.response.json.Returned? ==>
              var body := reply.response.json.response;
              && (body.choices == [] ==> r == Err(UndefinedProperty("message")))
              && (body.choices != [] ==> r == Ok(Completion(body.choices[0], body.totalTokens.GetOr(0))))
    ensures r.Ok? ==> reply.Returned? && reply.response.ok && reply.response.json.Returned?
    ensures r.Ok? ==> var body := reply.response.json.response;
                      body.choices != [] && r.value.content == body.choices[0]
                      && r.value.tokens == body.totalTokens.GetOr(0)
  {
    match reply
    case Rejected(message) => Err(ClientError(message))
    case Returned(response) =>
      if !response.ok then Err(ApiError("LM Studio", response.statusText))
      else match response.json
        case Rejected(message) => Err(ClientError(message))
        case Returned(body) =>
          if body.choices == [] then Err(UndefinedProperty("message"))
          else Ok(Completion(body.choices[0], body.totalTokens.GetOr(0)))
  }

  /** `generateLMStudio`: the caller's messages are posted unchanged, and a well-formed ok reply gives its first choice and `total_tokens || 0`. */
  function GenerateLMStudio(messages: seq<ChatMessage>, config: LlmConfig, net: Network): (r: Result<Completion, LlmError>)
    ensures var reply := net.lmstudio(LMStudioRequestFor(messages, config));
            && (reply.Rejected? ==> r == Err(ClientError(reply.message)))
            && (reply.Returned? && !reply.response.ok ==> r == Err(ApiError("LM Studio", reply.response.statusText)))
            && (reply.Returned? && reply.response.ok && reply.response.json.Returned? && reply.response.json.response.choices != [] ==>
                  r == Ok(Completion(reply.response.json.response.choices[0], reply.response.json.response.totalTokens.GetOr(0))))
  {
    ReadLMStudio(net.lmstudio(LMStudioRequestFor(messages, config)))
  }

  // ---------------------------------------------------------------------------------------------
  // Dispatch

  /** The single entry point: the adapter named by `config.provider`, or an error for any other tag. */
  function GenerateChatCompletion(messages: seq<ChatMessage>, config: LlmConfig, env: Env, net: Network): (r: Result<Completion, LlmError>)
    ensures ParseProvider(config.provider).None? ==> r == Err(UnsupportedProvider(config.provider))
    ensures r.Err? && r.error.UnsupportedProvider? ==> ParseProvider(config.provider).None?
  {
    match ParseProvider(config.provider)
    case None => Err(UnsupportedProvider(config.provider))
    case Some(OpenAI) => GenerateOpenAI(messages, config, env, net)
    case Some(Google) => GenerateGoogle(messages, config, env, net)
    case Some(Claude) => GenerateClaude(messages, config, env, net)
    case Some(Ollama) => GenerateOllama(messages, config, net)
    case Some(LMStudio) => GenerateLMStudio(messages, config, net)
  }

  /**
   * A known tag reaches its own adapter with the caller's messages: the request that adapter
   * builds from them goes to that provider's backend, and the reply is read by that adapter.
   */
  lemma {:induction false} DispatchesToAdapter(p: Provider, messages: seq<ChatMessage>, config: LlmConfig, env: Env, net: Network)
    requires config.provider == Tag(p)
    ensures var r := GenerateChatCompletion(messages, config, env, net);
            && (p == OpenAI ==> r == ReadOpenAI(net.openai(OpenAIRequestFor(messages, config, env))))
            && (p == Google ==> var request := GeminiRequestFor(messages, config, env);
                                && (request.Err? ==> r == Err(request.error))
                                && (request.Ok? ==> r == ReadGemini(net.google(request.value))))
            && (p == Claude ==> r == ReadClaude(net.claude(ClaudeRequestFor(messages, config, env))))
            && (p == Ollama ==> r == ReadOllama(net.ollama(OllamaRequestFor(messages, config))))
            && (p == LMStudio ==> r == ReadLMStudio(net.lmstudio(LMStudioRequestFor(messages, config))))
  {
    TagRoundTrip(p, config.provider);
  }

  /** Two networks that answer the same way at provider `p`'s endpoint. */
  ghost predicate AgreeAt(p: Provider, n1: Network, n2: Network) {
    match p
    case OpenAI => forall q :: n1.openai(q) == n2.openai(q)
    case Google => forall q :: n1.google(q) == n2.google(q)
    case Claude => forall q :: n1.claude(q) == n2.claude(q)
    case Ollama => forall q :: n1.ollama(q) == n2.ollama(q)
    case LMStudio => forall q :: n1.lmstudio(q) == n2.lmstudio(q)
  }

  /**
   * A completion for tag `Tag(p)` is routed to `p`'s adapter alone: it depends on no backend
   * but `p`'s, and an unknown tag consults none.
   */
  lemma {:induction false} RoutedToOwnBackend(p: Provider, messages: seq<ChatMessage>, config: LlmConfig, env: Env, n1: Network, n2: Network)
    requires config.provider == Tag(p) && AgreeAt(p, n1, n2)
    ensures GenerateChatCompletion(messages, config, env, n1) == GenerateChatCompletion(messages, config, env, n2)
  {
    TagRoundTrip(p, config.provider);
    match p
    case OpenAI => assert n1.openai(OpenAIRequestFor(messages, config, env)) == n2.openai(OpenAIRequestFor(messages, config, env));
    case Google =>
      var request := GeminiRequestFor(messages, config, env);
      if request.Ok? { assert n1.google(request.value) == n2.google(request.value); }
    case Claude => assert n1.claude(ClaudeRequestFor(messages, config, env)) == n2.claude(ClaudeRequestFor(messages, config, env));
    case Ollama => assert n1.ollama(OllamaRequestFor(messages, config)) == n2.ollama(OllamaRequestFor(messages, config));
    case LMStudio => assert n1.lmstudio(LMStudioRequestFor(messages, config)) == n2.lmstudio(LMStudioRequestFor(messages, config));
  }
}

=== FILE: middleware.dfy ===
/**
 * The redirect decision at the end of the request middleware (middleware.ts): a signed-out
 * visitor of a dashboard path is sent to the login page, a signed-in visitor of a login path to
 * the dashboard, and every other request continues with the response the locale middleware
 * built.
 */
module Middleware {
  import opened Wrappers
  import Schema

  predicate StartsWith(s: string, prefix: string) {
    |prefix| <= |s| && s[..|prefix|] == prefix
  }

  /** `s.includes(part)`: `part` occurs somewhere in `s`. */
  predicate Contains(s: string, part: string)
    decreases |s|
  {
    StartsWith(s, part) || (s != [] && Contains(s[1..], part))
  }

  /** A substring is found wherever it sits: with any prefix in front and any suffix behind it. */
  lemma {:induction false} ContainsInside(before: string, part: string, after: string)
    ensures Contains(before + part + after, part)
  {
    if before == [] {
      assert before + part + after == part + after;
      assert (part + after)[..|part|] == part;
    } else {
      ContainsInside(before[1..], part, after);
      assert (before + part + after)[1..] == before[1..] + part + after;
    }
  }

  /** What the middleware answers with. */
  datatype Decision = RedirectTo(path: string) | Continue

  /** The decision for a request to `pathname` by `user` (absent when signed out). */
  function Decide(pathname: string, user: Option<Schema.Id>): (d: Decision)
    ensures d == RedirectTo("/login") <==> user.None? && Contains(pathname, "/dashboard")
    ensures d == RedirectTo("/dashboard") <==> user.Some? && Contains(pathname, "/login")
    ensures d == Continue <==> !(user.None? && Contains(pathname, "/dashboard")) && !(user.Some? && Contains(pathname, "/login"))
  {
    if Contains(pathname, "/dashboard") && user.None? then RedirectTo("/login")
    else if Contains(pathname, "/login") && user.Some? then RedirectTo("/dashboard")
    else Continue
  }

  /**
   * Matching is by substring, so a dashboard path under any locale prefix (`/ko/dashboard/...`)
   * is protected, and a signed-in user is sent away from a login page under any prefix.
   */
  lemma {:induction false} LocalePrefixedPathsMatch(locale: string, rest: string, user: Schema.Id)
    ensures Decide(locale + "/dashboard" + rest, None) == RedirectTo("/login")
    ensures Decide(locale + "/login" + rest, Some(user)) == RedirectTo("/dashboard")
  {
    ContainsInside(locale, "/dashboard", rest);
    ContainsInside(locale, "/login", rest);
  }
}

=== FILE: ordering.dfy ===
/** Filtering, sorting by a numeric key, reversing and truncating sequences: the query shapes the handlers use. */
module Ordering {

  /** `key` never increases along `s`: the order of `ORDER BY key DESC`. */
  ghost predicate NonIncreasing<T>(s: seq<T>, key: T -> int) {
    forall i, j :: 0 <= i < j < |s| ==> key(s[i]) >= key(s[j])
  }

  /** `key` never decreases along `s`: oldest first. */
  ghost predicate NonDecreasing<T>(s: seq<T>, key: T -> int) {
    forall i, j :: 0 <= i < j < |s| ==> key(s[i]) <= key(s[j])
  }

  /** The elements of `s` that satisfy `p`, in their original order (a `WHERE` clause). */
  function Filter<T(==,!new)>(s: seq<T>, p: T -> bool): (r: seq<T>)
    ensures forall i :: 0 <= i < |r| ==> p(r[i]) && r[i] in s
    ensures |r| <= |s|
  {
    if s == [] then []
    else if p(s[0]) then [s[0]] + Filter(s[1..], p) else Filter(s[1..], p)
  }

  /** `Filter` keeps each element satisfying `p` as often as `s` holds it, and no other. */
  lemma {:induction false} FilterCounts<T(!new)>(s: seq<T>, p: T -> bool)
    ensures forall x :: multiset(Filter(s, p))[x] == if p(x) then multiset(s)[x] else 0
  {
    if s != [] {
      FilterCounts(s[1..], p);
      assert s == [s[0]] + s[1..];
    }
  }

  /** Filtering distributes over appending one element. */
  lemma {:induction false} FilterAppend<T(!new)>(s: seq<T>, x: T, p: T -> bool)
    ensures Filter(s + [x], p) == Filter(s, p) + (if p(x) then [x] else [])
  {
    var t := s + [x];
    var tail := if p(x) then [x] else [];
    FilterCons(t, p);
    if s == [] {
      assert t[1..] == [];
    } else {
      var head := if p(s[0]) then [s[0]] else [];
      var rest := Filter(s[1..], p);
      assert t[0] == s[0] && t[1..] == s[1..] + [x];
      FilterAppend(s[1..], x, p);
      FilterCons(s, p);
      assert Filter(t, p) == head + (rest + tail);
      ConcatAssociates(head, rest, tail);
    }
  }

  lemma ConcatAssociates<T>(a: seq<T>, b: seq<T>, c: seq<T>)
    ensures a + (b + c) == (a + b) + c
  {
  }

  /** One step of `Filter`. */
  lemma FilterCons<T(!new)>(s: seq<T>, p: T -> bool)
    requires s != []
    ensures Filter(s, p) == (if p(s[0]) then [s[0]] else []) + Filter(s[1..], p)
  {
  }

  /** Filtering distributes over concatenation: the kept elements of `a` come first, in order. */
  lemma {:induction false} FilterConcat<T(!new)>(a: seq<T>, b: seq<T>, p: T -> bool)
    ensures Filter(a + b, p) == Filter(a, p) + Filter(b, p)
  {
    if a == [] {
      assert a + b == b;
    } else {
      var t := a + b;
      var head := if p(a[0]) then [a[0]] else [];
      assert t[0] == a[0] && t[1..] == a[1..] + b;
      FilterCons(t, p);
      FilterConcat(a[1..], b, p);
      FilterCons(a, p);
      ConcatAssociates(head, Filter(a[1..], p), Filter(b, p));
    }
  }

  /** A sequence whose every element satisfies `p` is its own filter. */
  lemma {:induction false} FilterKeepsAll<T(!new)>(s: seq<T>, p: T -> bool)
    ensures (forall i :: 0 <= i < |s| ==> p(s[i])) ==> Filter(s, p) == s
  {
    if s != [] && forall i :: 0 <= i < |s| ==> p(s[i]) {
      assert forall i :: 0 <= i < |s[1..]| ==> p(s[1..][i]) by {
        forall i | 0 <= i < |s[1..]| ensures p(s[1..][i]) {
          assert s[1..][i] == s[i + 1];
        }
      }
      FilterKeepsAll(s[1..], p);
      FilterCons(s, p);
      assert s == [s[0]] + s[1..];
    }
  }

  /** No two elements of `s` share a key (a primary-key or unique constraint). */
  ghost predicate DistinctKeys<T>(s: seq<T>, key: T -> int) {
    forall i, j :: 0 <= i < j < |s| ==> key(s[i]) != key(s[j])
  }

  /** Deleting rows keeps a key unique. */
  lemma {:induction false} FilterKeepsKeysDistinct<T(!new)>(s: seq<T>, p: T -> bool, key: T -> int)
    requires DistinctKeys(s, key)
    ensures DistinctKeys(Filter(s, p), key)
  {
    if s != [] {
      var rest := s[1..];
      assert DistinctKeys(rest, key) by {
        forall a, b | 0 <= a < b < |rest| ensures key(rest[a]) != key(rest[b]) {
          assert rest[a] == s[a + 1] && rest[b] == s[b + 1];
        }
      }
      FilterKeepsKeysDistinct(rest, p, key);
      var kept := Filter(rest, p);
      if p(s[0]) {
        forall k | 0 <= k < |kept| ensures key(kept[k]) != key(s[0]) {
          var m :| 0 <= m < |rest| && rest[m] == kept[k];
          assert s[m + 1] == kept[k];
        }
        assert Filter(s, p) == [s[0]] + kept;
      }
    }
  }

  /** The head of a non-increasing sequence is at least as large as every later element. */
  lemma {:induction false} HeadIsLargest<T>(s: seq<T>, key: T -> int, y: T)
    requires NonIncreasing(s, key) && |s| > 0 && y in s[1..]
    ensures key(s[0]) >= key(y)
  {
    var j :| 0 <= j < |s[1..]| && s[1..][j] == y;
    assert s[j + 1] == y;
  }

  /** An element at least as large as the head of a non-increasing sequence can go in front. */
  lemma {:induction false} PrependLargest<T>(h: T, s: seq<T>, key: T -> int)
    requires NonIncreasing(s, key) && (s == [] || key(h) >= key(s[0]))
    ensures NonIncreasing([h] + s, key)
  {
    var r := [h] + s;
    forall i, j | 0 <= i < j < |r| ensures key(r[i]) >= key(r[j]) {
      if i == 0 && j > 1 {
        assert r[j] in s[1..] by {
          assert r[j] == s[1..][j - 2];
        }
        HeadIsLargest(s, key, r[j]);
      }
    }
  }

  /** The head of `s` stays in front of `x` inserted into the rest of `s`. */
  lemma {:induction false} HeadStaysFirst<T>(s: seq<T>, x: T, rest: seq<T>, key: T -> int)
    requires NonIncreasing(s, key) && s != [] && key(x) < key(s[0])
    requires NonIncreasing(rest, key) && multiset(rest) == multiset(s[1..]) + multiset{x}
    ensures NonIncreasing([s[0]] + rest, key)
  {
    if rest != [] {
      assert rest[0] in multiset(rest);
      if rest[0] != x {
        assert rest[0] in s[1..] by {
          assert rest[0] in multiset(s[1..]);
        }
        HeadIsLargest(s, key, rest[0]);
      }
    }
    PrependLargest(s[0], rest, key);
  }

  /** Inserts `x` into a non-increasing sequence, keeping it non-increasing. */
  function Insert<T(==)>(x: T, s: seq<T>, key: T -> int): (r: seq<T>)
    requires NonIncreasing(s, key)
    ensures NonIncreasing(r, key)
    ensures multiset(r) == multiset(s) + multiset{x}
  {
    if s == [] || key(x) >= key(s[0]) then
      PrependLargest(x, s, key);
      [x] + s
    else
      assert s == [s[0]] + s[1..];
      assert NonIncreasing(s[1..], key);
      var rest := Insert(x, s[1..], key);
      HeadStaysFirst(s, x, rest, key);
      [s[0]] + rest
  }

  /** `s` sorted by `key`, largest first (`ORDER BY key DESC`); ties in any order. */
  function SortDescending<T(==)>(s: seq<T>, key: T -> int): (r: seq<T>)
    ensures NonIncreasing(r, key)
    ensures multiset(r) == multiset(s)
  {
    if s == [] then []
    else
      assert s == [s[0]] + s[1..];
      Insert(s[0], SortDescending(s[1..], key), key)
  }

  /** `s` back to front (JavaScript's `Array.prototype.reverse`). */
  function Reverse<T>(s: seq<T>): (r: seq<T>)
    ensures |r| == |s|
    ensures forall i :: 0 <= i < |s| ==> r[i] == s[|s| - 1 - i]
  {
    if s == [] then [] else Reverse(s[1..]) + [s[0]]
  }

  /** Reversing keeps every element with its multiplicity and turns newest-first into oldest-first. */
  lemma {:induction false} ReverseProperties<T>(s: seq<T>, key: T -> int)
    ensures multiset(Reverse(s)) == multiset(s)
    ensures NonIncreasing(s, key) ==> NonDecreasing(Reverse(s), key)
  {
    if s != [] {
      ReverseProperties(s[1..], key);
      assert s == [s[0]] + s[1..];
    }
  }

  /**
   * Of a sequence sorted largest first, the first `k` elements are the `k` largest: every element
   * left out is no larger than any element kept (`ORDER BY key DESC LIMIT k`).
   */
  lemma {:induction false} PrefixHoldsLargest<T>(s: seq<T>, key: T -> int, k: nat)
    requires NonIncreasing(s, key) && k <= |s|
    ensures multiset(s) - multiset(s[..k]) == multiset(s[k..])
    ensures forall x, y :: x in s[..k] && y in multiset(s) - multiset(s[..k]) ==> key(y) <= key(x)
  {
    assert s == s[..k] + s[k..];
    forall x, y | x in s[..k] && y in multiset(s) - multiset(s[..k]) ensures key(y) <= key(x) {
      var i :| 0 <= i < k && s[i] == x;
      assert y in multiset(s[k..]);
      var j :| 0 <= j < |s[k..]| && s[k..][j] == y;
      assert s[k + j] == y;
    }
  }

  /**
   * The `n` largest elements of `s` by `key`, smallest first (`ORDER BY key DESC LIMIT n`, then
   * reversed): as many as `s` has up to `n`, taken from `s`, and none left out is larger than one
   * kept.
   */
  function Latest<T(==)>(s: seq<T>, key: T -> int, n: nat): (r: seq<T>)
    ensures |r| == if |s| < n then |s| else n
    ensures NonDecreasing(r, key)
    ensures multiset(r) <= multiset(s)
    ensures forall x, y :: x in r && y in multiset(s) - multiset(r) ==> key(y) <= key(x)
  {
    var sorted := SortDescending(s, key);
    var k := if |sorted| < n then |sorted| else n;
    var r := Reverse(sorted[..k]);
    assert |s| == |sorted| by {
      assert |multiset(s)| == |multiset(sorted)|;
    }
    ReverseProperties(sorted[..k], key);
    PrefixIsSubMultiset(sorted, k);
    LargestKept(s, sorted, key, k, r);
    r
  }

  lemma PrefixIsSubMultiset<T>(s: seq<T>, k: nat)
    requires k <= |s|
    ensures multiset(s[..k]) <= multiset(s)
  {
    assert s == s[..k] + s[k..];
  }

  /** Anything holding the first `k` elements of a largest-first sequence holds elements no smaller than those left out. */
  lemma {:induction false} LargestKept<T>(s: seq<T>, sorted: seq<T>, key: T -> int, k: nat, r: seq<T>)
    requires NonIncreasing(sorted, key) && multiset(sorted) == multiset(s) && k <= |sorted|
    requires multiset(r) == multiset(sorted[..k])
    ensures forall x, y :: x in r && y in multiset(s) - multiset(r) ==> key(y) <= key(x)
  {
    PrefixHoldsLargest(sorted, key, k);
    forall x, y | x in r && y in multiset(s) - multiset(r) ensures key(y) <= key(x) {
      assert x in multiset(r);
      assert x in sorted[..k];
    }
  }
}

=== FILE: schema.dfy ===
/**
 * The relational schema (drizzle/schema.ts) as values: one datatype per table row, one function
 * per insert that fills in the column defaults, the integrity constraints the store keeps
 * (primary keys, `user_settings.user_id` unique, foreign keys from `chat_history`), and the
 * `ON DELETE` rules of those foreign keys. The database is a `Tables` value; `Db.Store` holds
 * one and changes it.
 */
module Schema {
  import opened Wrappers
  import Ordering

  /** A row id (a UUID in the store). */
  type Id = nat
  /** A timestamp, read from a clock the caller supplies. */
  type Time = nat

  // ---------------------------------------------------------------------------------------------
  // Rows and their defaults

  /** `chat_sessions.title` default: "new conversation". */
  const DefaultSessionTitle: string := "새 대화"

  datatype ChatSession = ChatSession(id: Id, userId: Id, title: string, createdAt: Time, updatedAt: Time, deletedAt: Option<Time>)

  /** A `chat_sessions` insert; an omitted title takes the column default. */
  function NewChatSession(id: Id, userId: Id, title: Option<string>, now: Time): (s: ChatSession)
    ensures s.id == id && s.userId == userId
    ensures title.None? ==> s.title == "새 대화"
    ensures title.Some? ==> s.title == title.value
    ensures s.createdAt == now && s.updatedAt == now && s.deletedAt.None?
  {
    ChatSession(id, userId, title.GetOr(DefaultSessionTitle), now, now, None)
  }

  /** A `chat_history` row: `role` is free text ('user', 'assistant', 'system'); `tokens_used` is nullable. */
  datatype ChatTurn = ChatTurn(sessionId: Id, userId: Id, documentId: Option<Id>, role: string, content: string,
                               tokensUsed: Option<int>, createdAt: Time)

  /** The values object of a `chat_history` insert; `session_id` may be missing from the request. */
  datatype TurnValues = TurnValues(sessionId: Option<Id>, userId: Id, documentId: Option<Id>, role: string, content: string,
                                   tokensUsed: Option<int>)

  datatype UserSettings = UserSettings(userId: Id, provider: string, model: string,
                                       openaiApiKey: Option<string>, googleApiKey: Option<string>, claudeApiKey: Option<string>,
                                       ollamaBaseUrl: Option<string>, lmstudioBaseUrl: Option<string>)

  /** A `user_settings` insert; omitted columns take their defaults, the API keys start null. */
  function NewUserSettings(userId: Id, provider: Option<string>, model: Option<string>): (s: UserSettings)
    ensures s.userId == userId
    ensures provider.None? ==> s.provider == "openai"
    ensures provider.Some? ==> s.provider == provider.value
    ensures model.None? ==> s.model == "gpt-4-turbo-preview"
    ensures model.Some? ==> s.model == model.value
    ensures s.openaiApiKey.None? && s.googleApiKey.None? && s.claudeApiKey.None?
    ensures s.ollamaBaseUrl == Some("http://localhost:11434") && s.lmstudioBaseUrl == Some("http://localhost:1234")
  {
    UserSettings(userId, provider.GetOr("openai"), model.GetOr("gpt-4-turbo-preview"), None, None, None,
                 Some("http://localhost:11434"), Some("http://localhost:1234"))
  }

  /** An `api_usage` row; `cost` is in cents. */
  datatype ApiUsage = ApiUsage(userId: Id, endpoint: string, tokensUsed: int, cost: int, status: string,
                               errorMessage: Option<string>, createdAt: Time)

  /** An `api_usage` insert; omitted `tokens_used` and `cost` default to 0. */
  function NewApiUsage(userId: Id, endpoint: string, tokensUsed: Option<int>, cost: Option<int>, status: string,
                       errorMessage: Option<string>, now: Time): (u: ApiUsage)
    ensures tokensUsed.None? ==> u.tokensUsed == 0
    ensures tokensUsed.Some? ==> u.tokensUsed == tokensUsed.value
    ensures cost.None? ==> u.cost == 0
    ensures cost.Some? ==> u.cost == cost.value
    ensures u.userId == userId && u.endpoint == endpoint && u.status == status && u.errorMessage == errorMessage
  {
    ApiUsage(userId, endpoint, tokensUsed.GetOr(0), cost.GetOr(0), status, errorMessage, now)
  }

  datatype Document = Document(id: Id, userId: Id, title: string, content: string, fileType: Option<string>, status: string)

  /** A `documents` insert; an omitted status is `processing`. */
  function NewDocument(id: Id, userId: Id, title: string, content: string, fileType: Option<string>, status: Option<string>): (d: Document)
    ensures status.None? ==> d.status == "processing"
    ensures status.Some? ==> d.status == status.value
    ensures d.id == id && d.userId == userId && d.title == title && d.content == content && d.fileType == fileType
  {
    Document(id, userId, title, content, fileType, status.GetOr("processing"))
  }

  datatype Subscription = Subscription(userId: Id, plan: string, status: string, cancelAtPeriodEnd: Option<bool>)

  /** A `subscriptions` insert; a new subscription is on the free plan, active, not cancelling. */
  function NewSubscription(userId: Id, plan: Option<string>, status: Option<string>): (s: Subscription)
    ensures plan.None? ==> s.plan == "free"
    ensures status.None? ==> s.status == "active"
    ensures plan.Some? ==> s.plan == plan.value
    ensures status.Some? ==> s.status == status.value
    ensures s.userId == userId && s.cancelAtPeriodEnd == Some(false)
  {
    Subscription(userId, plan.GetOr("free"), status.GetOr("active"), Some(false))
  }

  // ---------------------------------------------------------------------------------------------
  // The database and its integrity constraints

  datatype Tables = Tables(sessions: seq<ChatSession>, history: seq<ChatTurn>, settings: seq<UserSettings>,
                           usage: seq<ApiUsage>, documents: seq<Document>)

  const EmptyTables: Tables := Tables([], [], [], [], [])

  function SessionIds(sessions: seq<ChatSession>): set<Id> {
    set s | s in sessions :: s.id
  }

  function DocumentIds(documents: seq<Document>): set<Id> {
    set d | d in documents :: d.id
  }

  function SettingsOwners(settings: seq<UserSettings>): set<Id> {
    set s | s in settings :: s.userId
  }

  function SessionKey(s: ChatSession): int { s.id }
  function DocumentKey(d: Document): int { d.id }

  /** `chat_sessions.id` is the primary key. */
  ghost predicate UniqueSessionIds(sessions: seq<ChatSession>) {
    Ordering.DistinctKeys(sessions, SessionKey)
  }

  /** `documents.id` is the primary key. */
  ghost predicate UniqueDocumentIds(documents: seq<Document>) {
    Ordering.DistinctKeys(documents, DocumentKey)
  }

  /** `user_settings.user_id` is unique: each user has at most one settings row. */
  ghost predicate UniqueSettingsOwners(settings: seq<UserSettings>) {
    forall i, j :: 0 <= i < j < |settings| ==> settings[i].userId != settings[j].userId
  }

  /** Every history turn points at an existing session and, when it has one, an existing document. */
  ghost predicate HistoryReferencesExist(db: Tables) {
    && (forall t :: t in db.history ==> t.sessionId in SessionIds(db.sessions))
    && (forall t :: t in db.history && t.documentId.Some? ==> t.documentId.value in DocumentIds(db.documents))
  }

  /** The constraints the schema declares and the store therefore always satisfies. */
  ghost predicate Consistent(db: Tables) {
    && UniqueSessionIds(db.sessions)
    && UniqueDocumentIds(db.documents)
    && UniqueSettingsOwners(db.settings)
    && HistoryReferencesExist(db)
  }

  /** A constraint violation the store raises instead of performing a write. */
  datatype DbError =
    | NotNullViolation(table: string, column: string)
    | ForeignKeyViolation(table: string, constraint: string)
    | UniqueViolation(constraint: string)
  {
    function Message(): string {
      match this
      case NotNullViolation(table, column) =>
        "null value in column \"" + column + "\" of relation \"" + table + "\" violates not-null constraint"
      case ForeignKeyViolation(table, constraint) =>
        "insert or update on table \"" + table + "\" violates foreign key constraint \"" + constraint + "\""
      case UniqueViolation(constraint) => "duplicate key value violates unique constraint \"" + constraint + "\""
    }
  }

  // ---------------------------------------------------------------------------------------------
  // Reads

  /** The settings row of `userId` (`SELECT ... WHERE user_id = userId`, first row). */
  function SettingsOf(settings: seq<UserSettings>, userId: Id): (r: Option<UserSettings>)
    ensures r.None? <==> userId !in SettingsOwners(settings)
    ensures r.Some? ==> r.value in settings && r.value.userId == userId
  {
    if settings == [] then None
    else if settings[0].userId == userId then Some(settings[0])
    else
      assert SettingsOwners(settings) == {settings[0].userId} + SettingsOwners(settings[1..]) by {
        assert settings == [settings[0]] + settings[1..];
      }
      SettingsOf(settings[1..], userId)
  }

  /** The session with id `id`, if any (`SELECT ... WHERE id = id`, first row). */
  function SessionById(sessions: seq<ChatSession>, id: Id): (r: Option<ChatSession>)
    ensures r.None? <==> id !in SessionIds(sessions)
    ensures r.Some? ==> r.value in sessions && r.value.id == id
  {
    if sessions == [] then None
    else if sessions[0].id == id then Some(sessions[0])
    else
      assert SessionIds(sessions) == {sessions[0].id} + SessionIds(sessions[1..]) by {
        assert sessions == [sessions[0]] + sessions[1..];
      }
      SessionById(sessions[1..], id)
  }

  /** In a table with unique ids, the session found by id is the only row with that id. */
  lemma {:induction false} SessionByIdUnique(sessions: seq<ChatSession>, i: nat)
    requires UniqueSessionIds(sessions) && i < |sessions|
    ensures SessionById(sessions, sessions[i].id) == Some(sessions[i])
  {
    if i > 0 {
      assert sessions[0].id != sessions[i].id;
      assert UniqueSessionIds(sessions[1..]) by {
        forall a, b | 0 <= a < b < |sessions[1..]| ensures sessions[1..][a].id != sessions[1..][b].id {
          assert sessions[1..][a] == sessions[a + 1] && sessions[1..][b] == sessions[b + 1];
        }
      }
      SessionByIdUnique(sessions[1..], i - 1);
    }
  }

  // ---------------------------------------------------------------------------------------------
  // Writes

  /** The `chat_history` row an insert of `v` at time `now` stores. */
  function TurnRow(v: TurnValues, now: Time): ChatTurn
    requires v.sessionId.Some?
  {
    ChatTurn(v.sessionId.value, v.userId, v.documentId, v.role, v.content, v.tokensUsed, now)
  }

  /**
   * `INSERT INTO chat_history`: refused when `session_id` is missing, or when the session or the
   * document it names does not exist; otherwise the row is appended and nothing else changes.
   */
  function InsertTurn(db: Tables, v: TurnValues, now: Time): (r: Result<Tables, DbError>)
    ensures r.Ok? <==> && v.sessionId.Some? && v.sessionId.value in SessionIds(db.sessions)
                       && (v.documentId.Some? ==> v.documentId.value in DocumentIds(db.documents))
    ensures v.sessionId.None? ==> r == Err(NotNullViolation("chat_history", "session_id"))
    ensures v.sessionId.Some? && v.sessionId.value !in SessionIds(db.sessions) ==>
              r == Err(ForeignKeyViolation("chat_history", "chat_history_session_id_chat_sessions_id_fk"))
    ensures v.sessionId.Some? && v.documentId.Some? && v.documentId.value !in DocumentIds(db.documents) ==>
              r.Err? && r.error.ForeignKeyViolation?
    ensures v.sessionId.Some? && v.sessionId.value in SessionIds(db.sessions)
            && v.documentId.Some? && v.documentId.value !in DocumentIds(db.documents) ==>
              r == Err(ForeignKeyViolation("chat_history", "chat_history_document_id_documents_id_fk"))
    ensures r.Ok? ==> r.value == db.(history := db.history + [TurnRow(v, now)])
    ensures r.Ok? && Consistent(db) ==> Consistent(r.value)
  {
    if v.sessionId.None? then Err(NotNullViolation("chat_history", "session_id"))
    else if v.sessionId.value !in SessionIds(db.sessions) then
      Err(ForeignKeyViolation("chat_history", "chat_history_session_id_chat_sessions_id_fk"))
    else if v.documentId.Some? && v.documentId.value !in DocumentIds(db.documents) then
      Err(ForeignKeyViolation("chat_history", "chat_history_document_id_documents_id_fk"))
    else Ok(db.(history := db.history + [TurnRow(v, now)]))
  }

  /** `INSERT INTO user_settings`: refused when the user already has a settings row. */
  function InsertSettings(db: Tables, row: UserSettings): (r: Result<Tables, DbError>)
    ensures r.Ok? <==> row.userId !in SettingsOwners(db.settings)
    ensures r.Ok? ==> r.value == db.(settings := db.settings + [row])
    ensures r.Err? ==> r == Err(UniqueViolation("user_settings_user_id_unique"))
    ensures r.Ok? && Consistent(db) ==> Consistent(r.value)
  {
    if row.userId in SettingsOwners(db.settings) then Err(UniqueViolation("user_settings_user_id_unique"))
    else Ok(db.(settings := db.settings + [row]))
  }

  /** `INSERT INTO chat_sessions`: refused when the id is taken. */
  function InsertSession(db: Tables, row: ChatSession): (r: Result<Tables, DbError>)
    ensures r.Ok? <==> row.id !in SessionIds(db.sessions)
    ensures r.Ok? ==> r.value == db.(sessions := db.sessions + [row])
    ensures r.Err? ==> r == Err(UniqueViolation("chat_sessions_pkey"))
    ensures r.Ok? && Consistent(db) ==> Consistent(r.value)
  {
    if row.id in SessionIds(db.sessions) then Err(UniqueViolation("chat_sessions_pkey"))
    else Ok(db.(sessions := db.sessions + [row]))
  }

  /** `INSERT INTO api_usage`; appends the row. */
  function InsertUsage(db: Tables, row: ApiUsage): (r: Tables)
    ensures r.usage == db.usage + [row]
    ensures r.(usage := db.usage) == db
    ensures Consistent(db) ==> Consistent(r)
  {
    db.(usage := db.usage + [row])
  }

  /** One session row after `UPDATE chat_sessions SET [title,] updated_at WHERE id = id`. */
  function Touched(s: ChatSession, id: Id, title: Option<string>, now: Time): (t: ChatSession)
    ensures t.id == s.id && t.userId == s.userId && t.createdAt == s.createdAt && t.deletedAt == s.deletedAt
    ensures s.id != id ==> t == s
    ensures s.id == id ==> t.updatedAt == now && t.title == title.GetOr(s.title)
  {
    if s.id == id then s.(title := title.GetOr(s.title), updatedAt := now) else s
  }

  /**
   * `UPDATE chat_sessions SET [title = title,] updated_at = now WHERE id = id`: the rows with that
   * id get the new values, every other row and every other table is unchanged.
   */
  function UpdateSession(db: Tables, id: Id, title: Option<string>, now: Time): (r: Tables)
    ensures |r.sessions| == |db.sessions|
    ensures forall i :: 0 <= i < |db.sessions| ==> r.sessions[i] == Touched(db.sessions[i], id, title, now)
    ensures r.(sessions := db.sessions) == db
    ensures Consistent(db) ==> Consistent(r)
  {
    var sessions := seq(|db.sessions|, i requires 0 <= i < |db.sessions| => Touched(db.sessions[i], id, title, now));
    assert SessionIds(sessions) == SessionIds(db.sessions) by {
      forall x | x in SessionIds(db.sessions) ensures x in SessionIds(sessions) {
        var k :| 0 <= k < |db.sessions| && db.sessions[k].id == x;
        assert sessions[k].id == x;
      }
    }
    db.(sessions := sessions)
  }

  function NotOwnedBy(userId: Id): ChatTurn -> bool {
    (t: ChatTurn) => t.userId != userId
  }

  /** `DELETE FROM chat_history WHERE user_id = userId`: exactly the turns of other users remain, in order. */
  function DeleteHistoryOf(db: Tables, userId: Id): (r: Tables)
    ensures forall t :: t in r.history ==> t.userId != userId
    ensures forall t: ChatTurn :: t.userId != userId ==> multiset(r.history)[t] == multiset(db.history)[t]
    ensures r.(history := db.history) == db
    ensures Consistent(db) ==> Consistent(r)
  {
    var kept := Ordering.Filter(db.history, NotOwnedBy(userId));
    Ordering.FilterCounts(db.history, NotOwnedBy(userId));
    assert forall t :: t in kept ==> t in db.history by {
      forall t | t in kept ensures t in db.history {
        assert multiset(kept)[t] > 0;
      }
    }
    db.(history := kept)
  }

  /**
   * `DELETE FROM chat_sessions WHERE id = id`: the `ON DELETE CASCADE` of `chat_history.session_id`
   * removes the session's turns with it.
   */
  function DeleteSession(db: Tables, id: Id): (r: Tables)
    ensures id !in SessionIds(r.sessions)
    ensures forall t :: t in r.history ==> t.sessionId != id
    ensures forall t: ChatTurn :: t.sessionId != id ==> multiset(r.history)[t] == multiset(db.history)[t]
    ensures forall s: ChatSession :: s.id != id ==> multiset(r.sessions)[s] == multiset(db.sessions)[s]
    ensures r.settings == db.settings && r.usage == db.usage && r.documents == db.documents
  {
    Ordering.FilterCounts(db.sessions, SessionNotWithId(id));
    Ordering.FilterCounts(db.history, TurnNotInSession(id));
    db.(sessions := Ordering.Filter(db.sessions, SessionNotWithId(id)),
        history := Ordering.Filter(db.history, TurnNotInSession(id)))
  }

  function SessionNotWithId(id: Id): ChatSession -> bool {
    (s: ChatSession) => s.id != id
  }

  function TurnNotInSession(id: Id): ChatTurn -> bool {
    (t: ChatTurn) => t.sessionId != id
  }

  /** Thanks to the cascade, deleting a session leaves no turn pointing at a missing session. */
  lemma {:induction false} DeleteSessionKeepsConsistent(db: Tables, id: Id)
    requires Consistent(db)
    ensures Consistent(DeleteSession(db, id))
  {
    var r := DeleteSession(db, id);
    Ordering.FilterKeepsKeysDistinct(db.sessions, SessionNotWithId(id), SessionKey);
    forall t | t in r.history ensures t.sessionId in SessionIds(r.sessions) {
      assert t in db.history;
      var k :| 0 <= k < |db.sessions| && db.sessions[k].id == t.sessionId;
      assert multiset(r.sessions)[db.sessions[k]] == multiset(db.sessions)[db.sessions[k]] > 0;
    }
    forall t | t in r.history && t.documentId.Some? ensures t.documentId.value in DocumentIds(r.documents) {
      assert t in db.history;
    }
  }

  /** A turn after its document `id` is deleted: `ON DELETE SET NULL` clears the reference. */
  function Unlinked(t: ChatTurn, id: Id): (u: ChatTurn)
    ensures t.documentId == Some(id) ==> u == t.(documentId := None)
    ensures t.documentId != Some(id) ==> u == t
  {
    if t.documentId == Some(id) then t.(documentId := None) else t
  }

  /**
   * `DELETE FROM documents WHERE id = id`: the turns that cited the document stay, with their
   * reference cleared.
   */
  function DeleteDocument(db: Tables, id: Id): (r: Tables)
    ensures id !in DocumentIds(r.documents)
    ensures |r.history| == |db.history|
    ensures forall i :: 0 <= i < |db.history| ==> r.history[i] == Unlinked(db.history[i], id)
    ensures forall d: Document :: d.id != id ==> multiset(r.documents)[d] == multiset(db.documents)[d]
    ensures r.sessions == db.sessions && r.settings == db.settings && r.usage == db.usage
  {
    Ordering.FilterCounts(db.documents, DocumentNotWithId(id));
    db.(documents := Ordering.Filter(db.documents, DocumentNotWithId(id)),
        history := seq(|db.history|, i requires 0 <= i < |db.history| => Unlinked(db.history[i], id)))
  }

  function DocumentNotWithId(id: Id): Document -> bool {
    (d: Document) => d.id != id
  }

  /** Thanks to `SET NULL`, deleting a document leaves no turn pointing at a missing document. */
  lemma {:induction false} DeleteDocumentKeepsConsistent(db: Tables, id: Id)
    requires Consistent(db)
    ensures Consistent(DeleteDocument(db, id))
  {
    var r := DeleteDocument(db, id);
    Ordering.FilterKeepsKeysDistinct(db.documents, DocumentNotWithId(id), DocumentKey);
    forall t | t in r.history ensures t.sessionId in SessionIds(r.sessions)
                                && (t.documentId.Some? ==> t.documentId.value in DocumentIds(r.documents)) {
      var i :| 0 <= i < |r.history| && r.history[i] == t;
      assert db.history[i] in db.history;
      if t.documentId.Some? {
        var k :| 0 <= k < |db.documents| && db.documents[k].id == t.documentId.value;
        assert multiset(r.documents)[db.documents[k]] == multiset(db.documents)[db.documents[k]] > 0;
      }
    }
  }
}

=== FILE: sessions_route.dfy ===
/**
 * Chat sessions (app/api/chat/sessions/route.ts): `GET` lists the caller's live sessions, most
 * recently updated first; `POST` creates a session. Whether the database answers at all is the
 * parameter `dbOk`; a refused answer is the handler's 500 reply.
 *
 * The listing query chains two `.where` calls. With Drizzle the second call replaces the first,
 * so the query as written filters on `deleted_at IS NULL` alone and returns every user's live
 * sessions. `ListingAsWritten` models that query and `ListingAsWrittenShowsOthers` exhibits the
 * leak; `Listing` is the intended owner-and-live query, which `Get` uses.
 */
module SessionsRoute {
  import opened Wrappers
  import opened Schema
  import opened Http
  import Ordering
  import Db

  const ListErrorCode: string := "GET_SESSIONS_ERROR"
  /** "Failed to load the session list." */
  const ListErrorMessage: string := "세션 목록을 불러오는데 실패했습니다"
  const CreateErrorCode: string := "CREATE_SESSION_ERROR"
  /** "Failed to create the session." */
  const CreateErrorMessage: string := "세션 생성에 실패했습니다"

  function UpdatedAt(s: ChatSession): int { s.updatedAt }

  function IsLive(s: ChatSession): bool { s.deletedAt.None? }

  function OwnedAndLive(userId: Id): ChatSession -> bool {
    (s: ChatSession) => s.userId == userId && s.deletedAt.None?
  }

  /** The query as written: `WHERE deleted_at IS NULL ORDER BY updated_at DESC`; the owner filter is lost. */
  function ListingAsWritten(sessions: seq<ChatSession>, userId: Id): (r: seq<ChatSession>)
    ensures Ordering.NonIncreasing(r, UpdatedAt)
    ensures forall s :: multiset(r)[s] == if s.deletedAt.None? then multiset(sessions)[s] else 0
  {
    Ordering.FilterCounts(sessions, IsLive);
    Ordering.SortDescending(Ordering.Filter(sessions, IsLive), UpdatedAt)
  }

  /** A live session of user 2 shows up in user 1's listing as written. */
  lemma ListingAsWrittenShowsOthers()
    ensures var other := ChatSession(7, 2, DefaultSessionTitle, 0, 0, None);
            other in ListingAsWritten([other], 1) && other.userId != 1
  {
    var other := ChatSession(7, 2, DefaultSessionTitle, 0, 0, None);
    assert multiset(ListingAsWritten([other], 1))[other] == 1;
  }

  /**
   * The intended listing: exactly the caller's sessions whose `deleted_at` is null, each as often
   * as it is stored, ordered by `updated_at`, largest first.
   */
  function Listing(sessions: seq<ChatSession>, userId: Id): (r: seq<ChatSession>)
    ensures forall i :: 0 <= i < |r| ==> r[i].userId == userId && r[i].deletedAt.None?
    ensures Ordering.NonIncreasing(r, UpdatedAt)
    ensures forall s :: multiset(r)[s] == if s.userId == userId && s.deletedAt.None? then multiset(sessions)[s] else 0
    ensures multiset(r) == multiset(Ordering.Filter(sessions, OwnedAndLive(userId)))
  {
    var mine := Ordering.Filter(sessions, OwnedAndLive(userId));
    Ordering.FilterCounts(sessions, OwnedAndLive(userId));
    var r := Ordering.SortDescending(mine, UpdatedAt);
    assert forall i :: 0 <= i < |r| ==> r[i] in mine by {
      forall i | 0 <= i < |r| ensures r[i] in mine {
        assert r[i] in multiset(r);
      }
    }
    r
  }

  /** The intended listing is exactly the as-written one restricted to the caller's sessions. */
  lemma {:induction false} ListingRestrictsAsWritten(sessions: seq<ChatSession>, userId: Id)
    ensures multiset(Listing(sessions, userId)) == multiset(Ordering.Filter(ListingAsWritten(sessions, userId), (s: ChatSession) => s.userId == userId))
  {
    var mine := (s: ChatSession) => s.userId == userId;
    var written := ListingAsWritten(sessions, userId);
    Ordering.FilterCounts(written, mine);
    forall s ensures multiset(Listing(sessions, userId))[s] == multiset(Ordering.Filter(written, mine))[s] {
    }
  }

  /** `GET /api/chat/sessions`. */
  function Get(db: Tables, user: Option<Id>, dbOk: bool): (r: Response<seq<ChatSession>>)
    ensures user.None? <==> r == Unauthorized
    ensures r.Failure? <==> user.Some? && !dbOk
    ensures r.Failure? ==> r.code == ListErrorCode && r.message == ListErrorMessage && r.Status() == 500
    ensures r.Success? ==> forall i :: 0 <= i < |r.data| ==> r.data[i].userId == user.value && r.data[i].deletedAt.None?
    ensures r.Success? ==> Ordering.NonIncreasing(r.data, UpdatedAt)
    ensures r.Success? ==> forall s :: s in db.sessions && s.userId == user.value && s.deletedAt.None? ==> s in r.data
    ensures r.Success? ==> r.data == Listing(db.sessions, user.value)
  {
    if user.None? then Unauthorized
    else if !dbOk then Failure(ListErrorCode, ListErrorMessage)
    else
      var r := Listing(db.sessions, user.value);
      assert forall s :: s in db.sessions && s.userId == user.value && s.deletedAt.None? ==> s in r by {
        forall s | s in db.sessions && s.userId == user.value && s.deletedAt.None? ensures s in r {
          assert multiset(r)[s] == multiset(db.sessions)[s];
        }
      }
      Success(r)
  }

  /** The JSON body of `POST`: unparsable, or an object with an optional `title`. */
  datatype SessionBody = Unparsable | Body(title: Option<string>)

  /** `body.title || '새 대화'`: a missing or empty title falls back to the placeholder. */
  function TitleOf(title: Option<string>): (t: string)
    ensures title.Some? && title.value != "" ==> t == title.value
    ensures title.None? || title.value == "" ==> t == DefaultSessionTitle
    ensures t != ""
  {
    if title.Some? && title.value != "" then title.value else DefaultSessionTitle
  }

  /**
   * `POST /api/chat/sessions` with `id` the fresh id and `now` the clock: 401 and no write
   * without a user; otherwise one new live session of the caller, returned, or a 500 and no
   * write when the body cannot be parsed, the database fails or the id is taken.
   */
  function Create(db: Tables, user: Option<Id>, body: SessionBody, id: Id, now: Time, dbOk: bool): (r: (Tables, Response<ChatSession>))
    ensures !r.1.Success? ==> r.0 == db
    ensures user.None? <==> r.1 == Unauthorized
    ensures r.1.Failure? ==> r.1.code == CreateErrorCode && r.1.message == CreateErrorMessage && r.1.Status() == 500
    ensures r.1.Success? <==> user.Some? && body.Body? && dbOk && id !in SessionIds(db.sessions)
    ensures r.1.Success? ==>
              && r.0 == db.(sessions := db.sessions + [r.1.data])
              && r.1.data == ChatSession(id, user.value, TitleOf(body.title), now, now, None)
    ensures Consistent(db) ==> Consistent(r.0)
  {
    if user.None? then (db, Unauthorized)
    else if body.Unparsable? || !dbOk then (db, Failure(CreateErrorCode, CreateErrorMessage))
    else
      var row := NewChatSession(id, user.value, Some(TitleOf(body.title)), now);
      match InsertSession(db, row)
      case Ok(db') => (db', Success(row))
      case Err(_) => (db, Failure(CreateErrorCode, CreateErrorMessage))
  }

  /** Appending a live session of the caller adds exactly that session to the caller's listing. */
  lemma {:induction false} ListingAfterInsert(sessions: seq<ChatSession>, row: ChatSession, user: Id)
    requires row.userId == user && row.deletedAt.None?
    ensures multiset(Listing(sessions + [row], user)) == multiset(Listing(sessions, user)) + multiset{row}
  {
    Ordering.FilterAppend(sessions, row, OwnedAndLive(user));
  }

  /** A created session is in the caller's next listing, and the sessions listed before still are. */
  lemma {:induction false} CreatedSessionIsListed(db: Tables, user: Id, body: SessionBody, id: Id, now: Time)
    requires Create(db, Some(user), body, id, now, true).1.Success?
    ensures var (db', response) := Create(db, Some(user), body, id, now, true);
            && response.data in Listing(db'.sessions, user)
            && multiset(Listing(db'.sessions, user)) == multiset(Listing(db.sessions, user)) + multiset{response.data}
  {
    var (db', response) := Create(db, Some(user), body, id, now, true);
    ListingAfterInsert(db.sessions, response.data, user);
    assert response.data in multiset(Listing(db'.sessions, user));
  }

  /** `POST`, performed on the store. */
  method Post(store: Db.Store, user: Option<Id>, body: SessionBody, id: Id, now: Time, dbOk: bool)
    returns (response: Response<ChatSession>)
    requires store.Valid()
    modifies store
    ensures store.Valid()
    ensures (store.Snapshot(), response) == Create(old(store.Snapshot()), user, body, id, now, dbOk)
  {
    if user.None? {
      return Unauthorized;
    }
    if body.Unparsable? || !dbOk {
      return Failure(CreateErrorCode, CreateErrorMessage);
    }
    var row := NewChatSession(id, user.value, Some(TitleOf(body.title)), now);
    var err := store.InsertSession(row);
    if err.Some? {
      return Failure(CreateErrorCode, CreateErrorMessage);
    }
    return Success(row);
  }
}

=== FILE: validators.dfy ===
/**
 * The request-body schemas (lib/validators.ts): each schema lists the issues of an input, and
 * parsing succeeds exactly when there are none. Only length, enumeration and range rules are
 * modelled; the e-mail and UUID format checks are not.
 */
module Validators {
  import opened Wrappers
  import Schema

  /** A validation issue: the offending field and its message. */
  datatype Issue = Issue(path: string, message: string)

  /** The fields an issue list complains about. */
  function FailedFields(issues: seq<Issue>): set<string> {
    set i | i in issues :: i.path
  }

  /** One rule of a schema: no issue when it holds, one issue on `path` otherwise. */
  function Rule(holds: bool, path: string, message: string): (r: seq<Issue>)
    ensures r == [] <==> holds
    ensures FailedFields(r) == if holds then {} else {path}
  {
    if holds then [] else [Issue(path, message)]
  }

  lemma FailedFieldsAppend(a: seq<Issue>, b: seq<Issue>)
    ensures FailedFields(a + b) == FailedFields(a) + FailedFields(b)
  {
  }

  /** Three rules together: no issue exactly when all hold, and the third field fails exactly when its rule does. */
  lemma ThreeRules(h1: bool, p1: string, m1: string, h2: bool, p2: string, m2: string, h3: bool, p3: string, m3: string)
    requires p3 != p1 && p3 != p2
    ensures var r := Rule(h1, p1, m1) + Rule(h2, p2, m2) + Rule(h3, p3, m3);
            && (r == [] <==> h1 && h2 && h3)
            && (p3 in FailedFields(r) <==> !h3)
            && FailedFields(r) <= {p1, p2, p3}
  {
    FailedFieldsAppend(Rule(h1, p1, m1), Rule(h2, p2, m2));
    FailedFieldsAppend(Rule(h1, p1, m1) + Rule(h2, p2, m2), Rule(h3, p3, m3));
  }

  // ---------------------------------------------------------------------------------------------
  // Auth

  datatype SignUpInput = SignUpInput(email: string, password: string, name: string)

  /** `signUpSchema`: a password of at least 8 characters and a name of at least 2. */
  function SignUpIssues(input: SignUpInput): (r: seq<Issue>)
    ensures r == [] <==> |input.password| >= 8 && |input.name| >= 2
    ensures "password" in FailedFields(r) <==> |input.password| < 8
    ensures "name" in FailedFields(r) <==> |input.name| < 2
    ensures FailedFields(r) <= {"password", "name"}
  {
    var a := Rule(|input.password| >= 8, "password", "비밀번호는 최소 8자 이상이어야 합니다");
    var b := Rule(|input.name| >= 2, "name", "이름은 최소 2자 이상이어야 합니다");
    FailedFieldsAppend(a, b);
    a + b
  }

  datatype SignInInput = SignInInput(email: string, password: string)

  /** `signInSchema`: a non-empty password. */
  function SignInIssues(input: SignInInput): (r: seq<Issue>)
    ensures r == [] <==> |input.password| >= 1
    ensures FailedFields(r) <= {"password"}
  {
    Rule(|input.password| >= 1, "password", "비밀번호를 입력해주세요")
  }

  // ---------------------------------------------------------------------------------------------
  // Documents

  const FileTypes: set<string> := {"pdf", "markdown", "txt"}

  /** Zod's message for a value outside the enumeration. */
  function EnumMessage(received: string): string {
    "Invalid enum value. Expected 'pdf' | 'markdown' | 'txt', received '" + received + "'"
  }

  datatype CreateDocumentInput = CreateDocumentInput(title: string, content: string, fileType: Option<string>)

  /** `createDocumentSchema`: non-empty title and content; a file type, when given, from the enumeration. */
  function CreateDocumentIssues(input: CreateDocumentInput): (r: seq<Issue>)
    ensures r == [] <==> && |input.title| >= 1 && |input.content| >= 1
                         && (input.fileType.Some? ==> input.fileType.value in FileTypes)
    ensures "file_type" in FailedFields(r) <==> input.fileType.Some? && input.fileType.value !in FileTypes
    ensures FailedFields(r) <= {"title", "content", "file_type"}
  {
    var fileTypeOk := input.fileType.None? || input.fileType.value in FileTypes;
    var title := Rule(|input.title| >= 1, "title", "제목을 입력해주세요");
    var content := Rule(|input.content| >= 1, "content", "내용을 입력해주세요");
    var fileType := Rule(fileTypeOk, "file_type", EnumMessage(input.fileType.GetOr("")));
    assert |"file_type"| != |"title"| && |"file_type"| != |"content"|;
    ThreeRules(|input.title| >= 1, "title", "제목을 입력해주세요", |input.content| >= 1, "content", "내용을 입력해주세요",
               fileTypeOk, "file_type", EnumMessage(input.fileType.GetOr("")));
    title + content + fileType
  }

  datatype UpdateDocumentInput = UpdateDocumentInput(title: Option<string>, content: Option<string>)

  /** `updateDocumentSchema`: each field may be omitted, but a given one must be non-empty. */
  function UpdateDocumentIssues(input: UpdateDocumentInput): (r: seq<Issue>)
    ensures r == [] <==> (input.title.Some? ==> |input.title.value| >= 1) && (input.content.Some? ==> |input.content.value| >= 1)
    ensures UpdateDocumentInput(None, None) == input ==> r == []
    ensures FailedFields(r) <= {"title", "content"}
  {
    var a := Rule(input.title.None? || |input.title.value| >= 1, "title", "제목을 입력해주세요");
    var b := Rule(input.content.None? || |input.content.value| >= 1, "content", "내용을 입력해주세요");
    FailedFieldsAppend(a, b);
    a + b
  }

  // ---------------------------------------------------------------------------------------------
  // Chat

  /** A parsed chat request: the message and the optional document it is about. */
  datatype ChatMessageInput = ChatMessageInput(message: string, documentId: Option<Schema.Id>)

  /** `chatMessageSchema.parse`: the message must be a string of at least one character; `document_id` is optional. */
  function ParseChatMessage(message: Option<string>, documentId: Option<Schema.Id>): (r: Result<ChatMessageInput, seq<Issue>>)
    ensures r.Ok? <==> message.Some? && |message.value| >= 1
    ensures r.Ok? ==> r.value.message == message.value && r.value.documentId == documentId
    ensures r.Err? ==> r.error != [] && FailedFields(r.error) == {"message"}
  {
    if message.None? then Err([Issue("message", "Required")])
    else if |message.value| < 1 then Err([Issue("message", "메시지를 입력해주세요")])
    else Ok(ChatMessageInput(message.value, documentId))
  }

  // ---------------------------------------------------------------------------------------------
  // Search

  const DefaultSearchLimit: real := 10.0

  /** `z.number()` admits any finite number, fractions included, so the limit is a real. */
  datatype SearchInput = SearchInput(query: string, limit: real)

  /** `searchSchema.parse`: a non-empty query and a limit in [1, 50], 10 when omitted. */
  function ParseSearch(query: string, limit: Option<real>): (r: Result<SearchInput, seq<Issue>>)
    ensures r.Ok? <==> |query| >= 1 && (limit.Some? ==> 1.0 <= limit.value <= 50.0)
    ensures r.Ok? ==> r.value.query == query && 1.0 <= r.value.limit <= 50.0
    ensures r.Ok? && limit.None? ==> r.value.limit == 10.0
    ensures r.Ok? && limit.Some? ==> r.value.limit == limit.value
    ensures r.Err? ==> r.error != [] && FailedFields(r.error) <= {"query", "limit"}
  {
    var n := limit.GetOr(DefaultSearchLimit);
    var issues := Rule(|query| >= 1, "query", "검색어를 입력해주세요")
                  + Rule(n >= 1.0, "limit", "Number must be greater than or equal to 1")
                  + Rule(n <= 50.0, "limit", "Number must be less than or equal to 50");
    FailedFieldsAppend(Rule(|query| >= 1, "query", "검색어를 입력해주세요"), Rule(n >= 1.0, "limit", "Number must be greater than or equal to 1"));
    FailedFieldsAppend(Rule(|query| >= 1, "query", "검색어를 입력해주세요") + Rule(n >= 1.0, "limit", "Number must be greater than or equal to 1"),
                       Rule(n <= 50.0, "limit", "Number must be less than or equal to 50"));
    if issues == [] then Ok(SearchInput(query, n)) else Err(issues)
  }
}

=== FILE: wrappers.dfy ===
/** Optional values and results with an error, as the route handlers and adapters use them. */
module Wrappers {

  /** A value that may be absent: JavaScript's `undefined`/`null` next to a present value. */
  datatype Option<+T> = None | Some(value: T) {

    /** The value when present, `default` otherwise (JavaScript's `??`). */
    function GetOr(default: T): T {
      match this
      case Some(v) => v
      case None => default
    }
  }

  /** The outcome of a computation that either returns a value or raises an error. */
  datatype Result<+R, +E> = Ok(value: R) | Err(error: E)
}
